=== FILE: README.md ===
# emcache / fastcache ASCII client core in Dafny

This project models the client side of the memcached ASCII text protocol as implemented by
emcache and by the fastcache package of the same repository. Memcached's `protocol.txt` defines the protocol; its
sections "Keys", "Storage commands", "Retrieval command", "Deletion", "Increment/Decrement",
"Touch" and "Get And Touch" are the relevant ones. Five pieces are modelled:

- **Command framing** (`frames.dfy`, `keys.dfy`, `bytes.dfy`).
  - The emcache `_Pipeline` builders turn every command into its exact byte string, e.g.
    `set <key> <flags> <exptime> <len>[ <cas>][ noreply]\r\n<value>\r\n`.
  - Bad arguments are refused first, in the source's order: the cas bound, the flags bound,
    the key rule and a negative incr/decr delta.
  - Reference decoders state what a server reads back from each frame. Round-trip lemmas
    prove that every field comes back and that the declared length is the value's length.
- **The emcache client** (`emcache_client.dfy`, `pipeline.dfy`).
  - `_Client` checks its arguments and maps the server's reply to a result or a typed
    exception.
  - `get`/`gets` shape their result, and `get_many`/`gets_many` merge the node replies in
    a nested loop.
  - The `_Pipeline` class keeps a stack of frames. Builders push onto it; `execute` and
    `__aexit__` reset it.
- **The fastcache client** (`fastcache_client.dfy`) checks flags and the key, classifies
  storage replies, and shapes the result of `get`.
- **The fastcache connection** (`protocol.dfy`).
  - `MemcacheAsciiProtocol` builds the `get` and storage frames.
  - It installs and uninstalls its reply parser around each command.
  - It forwards received bytes to that parser, and `close` is idempotent.
  - Each coroutine is split at its `await` into a send method and a reply method.
- **The fastcache connection pool** (`connection_pool.dfy`).
  - The pool is an admission state machine over a bounded LIFO deque of idle connections,
    a deque of waiter futures, a connection counter and a single "creation in progress"
    flag.
  - Futures are waiter ids with a state (pending, resolved, cancelled). Each asyncio
    callback is one method.
  - Cancelling a waiting task is its own event. It cancels the waiter future only while
    that is pending, but the task re-raises the cancellation in either case.
  - The class invariant keeps the counter plus the creation in flight within
    `max_connections`. The wake-up resolves the most recent pending waiter.
- **The streaming one-line reply detector** (`line_parser.dfy`).
  - This is `OneLineParser` of `benchmark/bench_parser_line.py`: a buffer extended per
    chunk, signalling completion on a trailing CR LF.
  - It is proved independent of how the bytes are chunked.

Bytes are `seq<byte>` with `byte = 0..255`. Python integers (flags, exptime, cas, deltas)
are unbounded `int`s, written in decimal as `%a` and `str()` write them, including a sign
for negative values. Replies that would come over the network are parameters. Every
exception is an `Error` value in a `Result` or `Outcome`. Text that the source decodes with `bytes.decode()` stays as its bytes. Decoding succeeds exactly when those bytes are well-formed UTF-8 by the byte-sequence table of section 4 of RFC 3629; otherwise it is a UnicodeDecodeError.

## Model

| member | source | states |
|---|---|---|
| Keys.ValidKeyExamples | tests/unit/_cython/test_key_validation.py:7-9 | `foo` and `123foobarfoo123` are valid keys |
| Keys.InvalidKeyExamples | tests/unit/_cython/test_key_validation.py:11-25 | a space, a trailing space, a trailing LF or CR, and 251 bytes are each refused |
| Keys.KeyLengthBoundary | emcache/client.py:917 | keys of 250 bytes are accepted; 251 bytes or the empty key are refused |
| Keys.ValidKeyHasNoSeparators | emcache/client.py:917-925 | a valid key holds no space, CR or LF, so it is always one token of the frame |
| Keys.RegexAcceptsTrailingNewline | benchmark/bench_validate_key.py:11-20 | the benchmark's `^...$` pattern accepts `12345678\n`, which the key rule refuses (see Findings) |
| Keys.AnchoredRegexIsKeyRule | benchmark/bench_validate_key.py:20 | with both patterns defined by their matching (a run of class bytes, then the anchor), the fully anchored pattern accepts exactly the valid keys, and the `$` pattern accepts exactly the valid keys and the valid keys followed by one LF |
| Keys.ValidKeyThenNewline | benchmark/bench_validate_key.py:11-20 | every valid key followed by one LF passes the `$` pattern and fails the key rule |
| Bytes.IntDecimalRoundTrip | emcache/client.py:925 | the decimal numeral written for any integer (with its sign) reads back as that integer |
| Frames.BuildStorageCommand | emcache/client.py:905-925 | refused iff cas > 2**64, else flags > 2**16, else the key is invalid, each with its own ValueError in that order; a built frame decodes to cmd, key, flags, exptime, len(value), cas and noreply, followed by exactly the value |
| Frames.StorageBoundsInclusive | emcache/client.py:911-915 | the bounds are strict: flags = 2**16 and cas = 2**64 are accepted, one more is refused |
| Frames.StorageFrameRoundTrip | emcache/client.py:920-925 | header then data block: every field decodes back, the declared length equals the value's length, and cas precedes noreply |
| Frames.StorageHeaderRoundTrip | emcache/client.py:920-925 | the header line splits into tokens that parse back to the fields and contains no CR |
| Frames.BuildIncrDecrCommand | emcache/client.py:927-935 | refused iff the delta is negative or the key invalid, delta first: NegativeDelta iff delta < 0, InvalidKey iff delta >= 0 and the key is invalid; the frame decodes to `[incr/decr, key, delta] (+ noreply)` |
| Frames.BuildRetrievalCommand | emcache/client.py:898-903 | refused iff some key is invalid; the frame decodes to the command followed by exactly the keys, single-space separated |
| Frames.EmptyRetrieval | emcache/client.py:903 | an empty key list still yields a frame, `get \r\n` |
| Frames.BuildGetAndTouchCommand | emcache/client.py:937-942 | refused iff some key is invalid; the frame decodes to `[gat/gats, exptime] + keys` |
| Frames.TouchRoundTrip | emcache/client.py:1061-1063 | `touch key exptime[ noreply]` decodes back to its tokens |
| Frames.DeleteRoundTrip | emcache/client.py:1066-1068 | `delete key[ noreply]` decodes back to its tokens |
| Frames.NumericFrame | emcache/client.py:1071-1113 | flush_all, cache_memlimit and verbosity frames decode to `[name, number] (+ noreply)` |
| Frames.VersionFrame | emcache/client.py:1076-1078 | the frame decodes to `[version]` |
| Frames.StatsFrame | emcache/client.py:1106-1108 | with arguments free of spaces and CR, the frame decodes to `stats` followed by the arguments; without arguments, to `[stats]` |
| Frames.CommandLineRoundTrip | emcache/client.py:903 | tokens joined by single spaces and ended by CR LF decode back to the same tokens |
| Pipeline.Pipeline.constructor | emcache/client.py:885-890 | a new pipeline has an empty stack |
| Pipeline.Pipeline.Exit | emcache/client.py:895-896 | `__aexit__` empties the stack |
| Pipeline.Pipeline.Execute | emcache/client.py:944-949 | a closed client raises RuntimeError and leaves the stack; otherwise the bytes sent are the frames concatenated in push order, and the stack is emptied |
| Pipeline.Pipeline.Get | emcache/client.py:997-1000 | a built frame is pushed and the call passes; a refused one leaves the stack unchanged and raises the builder's error |
| Pipeline.Pipeline.Gets | emcache/client.py:1002-1005 | as Get, with `gets` |
| Pipeline.Pipeline.GetMany | emcache/client.py:1007-1010 | as Get, for a list of keys |
| Pipeline.Pipeline.GetsMany | emcache/client.py:1012-1015 | as GetMany, with `gets` |
| Pipeline.Pipeline.Set | emcache/client.py:1017-1020 | pushes the storage frame or raises with the stack unchanged |
| Pipeline.Pipeline.Add | emcache/client.py:1022-1025 | as Set, with `add` |
| Pipeline.Pipeline.Replace | emcache/client.py:1027-1032 | as Set, with `replace` |
| Pipeline.Pipeline.Append | emcache/client.py:1034-1037 | as Set, with `append`, flags 0 and exptime 0 |
| Pipeline.Pipeline.Prepend | emcache/client.py:1039-1042 | as Set, with `prepend`, flags 0 and exptime 0 |
| Pipeline.Pipeline.CompareAndSwap | emcache/client.py:1044-1049 | as Set, with `cas` and the cas token |
| Pipeline.Pipeline.Increment | emcache/client.py:1051-1054 | pushes the incr frame or raises with the stack unchanged |
| Pipeline.Pipeline.Decrement | emcache/client.py:1056-1059 | pushes the decr frame or raises with the stack unchanged |
| Pipeline.Pipeline.Touch | emcache/client.py:1061-1064 | always pushes exactly the touch frame (the key is not checked) |
| Pipeline.Pipeline.Delete | emcache/client.py:1066-1069 | always pushes exactly the delete frame (the key is not checked) |
| Pipeline.Pipeline.FlushAll | emcache/client.py:1071-1074 | always pushes exactly the flush_all frame |
| Pipeline.Pipeline.Version | emcache/client.py:1076-1079 | always pushes exactly `version\r\n` |
| Pipeline.Pipeline.Gat | emcache/client.py:1081-1084 | pushes the gat frame or raises with the stack unchanged |
| Pipeline.Pipeline.Gats | emcache/client.py:1086-1089 | as Gat, with `gats` |
| Pipeline.Pipeline.GatMany | emcache/client.py:1091-1094 | as Gat, for a list of keys |
| Pipeline.Pipeline.GatsMany | emcache/client.py:1096-1099 | as GatMany, with `gats` |
| Pipeline.Pipeline.CacheMemlimit | emcache/client.py:1101-1104 | always pushes exactly the cache_memlimit frame |
| Pipeline.Pipeline.Stats | emcache/client.py:1106-1109 | always pushes exactly the stats frame |
| Pipeline.Pipeline.Verbosity | emcache/client.py:1111-1114 | always pushes exactly the verbosity frame |
| Pipeline.SentInPushOrder | emcache/client.py:949 | one more push extends what `execute` sends by exactly that frame, and the length adds up |
| Pipeline.RefusedPushSendsNothing | emcache/client.py:997-1114 | a builder fails iff its frame was refused, and then what `execute` would send is unchanged |
| EmcacheClient.RepliesDiffer | emcache/client.py:454-567 | STORED, NOT_STORED, EXISTS and NOT_FOUND are distinct replies, so the classifications never overlap |
| EmcacheClient.ClassifySet | emcache/client.py:454-457 | passes iff noreply or the reply is STORED; otherwise StorageCommandError |
| EmcacheClient.ClassifyConditional | emcache/client.py:470-476 | passes iff noreply or STORED; NOT_STORED is NotStoredStorageCommandError; any other reply is StorageCommandError |
| EmcacheClient.ClassifyCas | emcache/client.py:561-567 | passes iff noreply or STORED; EXISTS is NotStoredStorageCommandError; any other reply, NOT_FOUND included, is StorageCommandError |
| EmcacheClient.ClassifyCounter | emcache/client.py:579-587 | noreply gives None; NOT_FOUND is NotFoundCommandError; any other reply succeeds iff it reads as an integer (an optional `-` then digits, so `-5` and `007` too) and then gives that integer, and otherwise raises ValueError; a canonical numeral gives its value |
| EmcacheClient.ClassifyKeyCommand | emcache/client.py:628-634 | passes iff noreply or the expected word; NOT_FOUND is NotFoundCommandError; anything else is CommandError |
| EmcacheClient.ClassifyOk | emcache/client.py:689-693 | passes iff noreply or OK; otherwise CommandError |
| EmcacheClient.ClassifyVersion | emcache/client.py:717-720 | CommandError iff the reply does not start with VERSION; otherwise UnicodeDecodeError iff the reply without its leading `VERSION ` is not UTF-8, else that text |
| EmcacheClient.RemovePrefix | emcache/client.py:720 | `removeprefix`: the prefix plus the result is the input when the input starts with the prefix, else the input is unchanged |
| EmcacheClient.VersionDecoding | emcache/client.py:720 | an ASCII version after `VERSION ` is returned as sent; a trailing 0xFF byte makes the decode raise |
| Bytes.AsciiIsUtf8 | emcache/client.py:720 | every 7-bit ASCII string decodes |
| Bytes.Utf8Append | emcache/client.py:720 | after a well-formed prefix, the whole decodes exactly when the rest does |
| Bytes.Utf8Examples | emcache/client.py:720 | `é` in two bytes decodes; a lone continuation byte, a truncated sequence, an overlong NUL and a surrogate raise |
| EmcacheClient.ClassifyStats | emcache/client.py:844-845 | passes iff the reply ends with END; otherwise CommandError |
| EmcacheClient.ItemAt | emcache/client.py:394-401 | the Item at a position carries the value, flags only with return_flags, and cas only for gets; a short list raises IndexError |
| EmcacheClient.ShapeSingle | emcache/client.py:330-340 | a CLIENT_ERROR is CommandError; a key absent from the reply is None; otherwise the Item at position 0, which exists when the lists it reads are non-empty, and IndexError when one is empty |
| EmcacheClient.LastIndex | emcache/client.py:394-395 | the last position holding a key, None iff the key is absent |
| EmcacheClient.LastReply | emcache/client.py:391-395 | the last node reply holding a key, None iff no reply holds it |
| EmcacheClient.AddEntriesValues | emcache/client.py:394-395 | after writing a reply's entries in order, a key among them holds the Item of its last position, and any other key keeps its earlier value |
| EmcacheClient.MergeValues | emcache/client.py:387-427 | every merged key maps to the Item built from its last position in the last node reply that returned it (a later entry overwrites) |
| EmcacheClient.MergeFacts | emcache/client.py:387-403 | merged results hold exactly the keys the nodes returned, each Item shaped by return_flags and cas; the only errors are CommandError and IndexError |
| EmcacheClient.MergeFailsOnClientError | emcache/client.py:391-393 | with well-formed replies, the merge fails iff some node reported a CLIENT_ERROR, and then with CommandError |
| EmcacheClient.MergeErrorPersists | emcache/client.py:391-399 | once the merge of a prefix of the replies fails, the whole merge fails with the same error |
| EmcacheClient.MergeReplies | emcache/client.py:389-403 | the nested loop over node replies and their keys computes exactly the merge |
| EmcacheClient.Client.constructor | emcache/client.py:54-99 | a new client is open and has not closed its cluster |
| EmcacheClient.Client.Close | emcache/client.py:290-301 | close is idempotent: the cluster is closed by the first call only |
| EmcacheClient.Client.StorageCommand | emcache/client.py:149-170 | closed raises RuntimeError first; otherwise it is refused exactly when, and with the same error as, the pipeline's storage builder |
| EmcacheClient.Client.Set | emcache/client.py:429-457 | validation errors first, then the set classification of the reply |
| EmcacheClient.Client.Conditional | emcache/client.py:459-497 | add and replace: validation errors first, then NOT_STORED is NotStoredStorageCommandError and any other non-STORED reply StorageCommandError, unless noreply |
| EmcacheClient.Client.Concatenate | emcache/client.py:499-546 | append and prepend: as Conditional with flags 0 and exptime 0, so the flags and cas bounds never refuse them |
| EmcacheClient.Client.CompareAndSwap | emcache/client.py:548-567 | validation with the cas bound, then the EXISTS-aware classification |
| EmcacheClient.Client.IncrDecr | emcache/client.py:172-186 | closed, then a negative delta, then the key are refused exactly as the pipeline builder refuses them; otherwise the counter classification |
| EmcacheClient.Client.Touch | emcache/client.py:609-636 | closed, then the key, are refused; otherwise the TOUCHED/NOT_FOUND classification |
| EmcacheClient.Client.Delete | emcache/client.py:638-665 | closed, then the key, are refused; otherwise the DELETED/NOT_FOUND classification |
| EmcacheClient.Client.OkCommand | emcache/client.py:667-695 | flush_all, cache_memlimit and verbosity: closed raises, otherwise the OK classification |
| EmcacheClient.Client.Version | emcache/client.py:697-720 | closed raises, otherwise the VERSION classification |
| EmcacheClient.Client.Stats | emcache/client.py:830-847 | closed raises, otherwise the END classification |
| EmcacheClient.Client.Fetch | emcache/client.py:188-199 | get, gets, gat and gats: closed, then the key, are refused before any reply is shaped; a returned Item carries flags iff return_flags and cas iff the command returns cas |
| EmcacheClient.Client.FetchMany | emcache/client.py:201-213 | closed raises; no keys give an empty map; one invalid key raises ValueError; otherwise the merge of the node replies |
| FastcacheClient.StorageCommand | fastcache/client.py:63-78 | flags > 2**16 are refused before the key is checked; accepted iff flags <= 2**16 and the key is valid |
| FastcacheClient.StorageChecksAgree | fastcache/client.py:69-73 | fastcache refuses exactly what the emcache builder refuses for a command without cas, with the same errors |
| FastcacheClient.Set | fastcache/client.py:137-140 | validation errors first, then StorageCommandError unless STORED or noreply |
| FastcacheClient.Conditional | fastcache/client.py:154-223 | add, replace, append and prepend: validation first, then NOT_STORED or another non-STORED reply raise unless noreply |
| FastcacheClient.Get | fastcache/client.py:93-110 | an invalid key raises; a miss is None (or None, None with return_flags); a hit is values[0] (with flags[0]); empty lists raise IndexError |
| FastcacheClient.GetHitOrMiss | fastcache/client.py:101-110 | a one-key reply yields its value (and flags); an empty reply is a miss of the requested shape |
| Protocol.GetFrame | fastcache/protocol.py:66 | `get_cmd` writes exactly `get <key>\r\n`, the retrieval frame for one key |
| Protocol.ProtocolStorageFrame | fastcache/protocol.py:80-99 | the fastcache storage frame is the emcache storage frame without cas |
| Protocol.ProtocolFrameRoundTrip | fastcache/protocol.py:80-99 | the frame decodes back to its fields, and the declared length is the value's length |
| Protocol.SetFrameExample | fastcache/protocol.py:76-99 | `storage_command(b"set", b"foo", b"value", 0, 0, False)` writes `set foo 0 0 5\r\nvalue\r\n`, the frame test_protocol.py:74 expects (its `set_cmd` call is read as this call; see Left out) |
| Protocol.GetFrameExample | tests/unit/test_protocol.py:50-61 | the test's `get foo` writes exactly `get foo\r\n` |
| Protocol.NegativeExptimeExample | fastcache/protocol.py:80 | a negative exptime is written with its sign: `set foo 0 -1 5\r\nvalue\r\n` |
| Protocol.MemcacheAsciiProtocol.constructor | fastcache/protocol.py:31-38 | a new protocol is open, has no parser installed and has written nothing |
| Protocol.MemcacheAsciiProtocol.Close | fastcache/protocol.py:58-63 | close is idempotent: the transport is closed at most once |
| Protocol.MemcacheAsciiProtocol.DataReceived | fastcache/protocol.py:52-56 | without a parser it raises RuntimeError and changes nothing; otherwise the bytes go to the installed parser unchanged |
| Protocol.MemcacheAsciiProtocol.GetCmdSend | fastcache/protocol.py:65-70 | a multi-line parser is installed and exactly the get frame is written |
| Protocol.MemcacheAsciiProtocol.GetCmdReply | fastcache/protocol.py:71-74 | the parser's input is taken and the parser slot is emptied |
| Protocol.MemcacheAsciiProtocol.StorageCommandSend | fastcache/protocol.py:101-109 | the frame is always written; with noreply no parser is installed, otherwise a fresh one-line parser is |
| Protocol.MemcacheAsciiProtocol.StorageCommandReply | fastcache/protocol.py:110-113 | the completed line without its CR LF is returned and the parser slot is emptied |
| Protocol.StoredExchange | fastcache/protocol.py:76-113 | `storage_command(b"set", b"foo", b"value", 0, 0, False)` answered by `STORED\r\n` writes the frame test_protocol.py:74 expects, returns STORED and leaves no parser (its `set_cmd` call is read as this call; see Left out) |
| LineParser.Feed | benchmark/bench_parser_line.py:17-25 | the chunk is appended; an empty buffer raises IndexError; the event is set iff it was set or the buffer ends with CR LF, so it is never cleared |
| LineParser.OneLineParser.constructor | benchmark/bench_parser_line.py:12-15 | a new parser has an empty buffer and its event is not set |
| LineParser.OneLineParser.FeedData | benchmark/bench_parser_line.py:17-25 | the in-place method does exactly what Feed specifies |
| LineParser.RunBuffer | benchmark/bench_parser_line.py:17-22 | over a run of feeds, the only failure is an empty first chunk; otherwise the buffer is the concatenation of the chunks |
| LineParser.RunSignalled | benchmark/bench_parser_line.py:24-25 | after a run, the event is set iff the buffer ended with CR LF after some feed |
| LineParser.ChunkingIndependence | tests/unit/_cython/protocol/ascii/test_ascii_one_line_parser.py:9-22 | a line plus CR LF in any chunking signals only after the last byte, and the buffer then holds exactly those bytes |
| LineParser.LineValue | tests/unit/_cython/protocol/ascii/test_ascii_one_line_parser.py:22 | the value is the buffer without its final CR LF |
| LineParser.ParserExamples | benchmark/bench_parser_line.py:32-34 | the benchmark's `asdfasdf\r` does not signal, and `\n` then does |
| LineParser.CrlfExample | tests/unit/_cython/protocol/ascii/test_ascii_one_line_parser.py:11 | `\r\n` in one chunk signals at once, and the value is empty |
| LineParser.SplitCrlfExample | tests/unit/_cython/protocol/ascii/test_ascii_one_line_parser.py:11 | `\r` does not signal; `\n` after it does |
| LineParser.FooLineExamples | tests/unit/_cython/protocol/ascii/test_ascii_one_line_parser.py:11-22 | `foo`, `\r` does not signal; `\n` after it does, and the value is `foo` |
| LineParser.FooCrlfExample | tests/unit/_cython/protocol/ascii/test_ascii_one_line_parser.py:11-22 | `foo` then `\r\n` signals with the buffer `foo\r\n` |
| ConnectionPool.BoundedAppend | fastcache/connection_pool.py:29 | appending to a deque with maxlen keeps exactly the right-most maxlen elements of the old deque plus the new one |
| ConnectionPool.BoundedAppendEvictsOldest | fastcache/connection_pool.py:29 | below the bound nothing is evicted; at the bound the oldest element goes; the new element is always right-most |
| ConnectionPool.RemoveFirst | fastcache/connection_pool.py:96-98 | `remove` takes out the first occurrence; a missing waiter raises ValueError |
| ConnectionPool.RemoveFirstFacts | fastcache/connection_pool.py:96-98 | removing from a duplicate-free deque leaves it duplicate-free and one shorter, without the waiter |
| ConnectionPool.LastPending | fastcache/connection_pool.py:40-47 | the waiter picked is the right-most one not done; none is picked iff every waiter is done |
| ConnectionPool.WakeupIsLifo | fastcache/connection_pool.py:44-47 | the most recent pending waiter is resolved and no other waiter changes state |
| ConnectionPool.WakeupWhenAllDone | fastcache/connection_pool.py:41-47 | with every waiter done, the wake-up changes nothing |
| ConnectionPool.ConnectionPool.constructor | fastcache/connection_pool.py:23-32 | a new pool has no connections, no waiters, no creation in flight and satisfies the invariant |
| ConnectionPool.ConnectionPool.WakeupNextWaiter | fastcache/connection_pool.py:40-47 | the reverse scan resolves exactly the waiter LastPending picks and changes nothing else |
| ConnectionPool.ConnectionPool.CreateConnectionContext | fastcache/connection_pool.py:63-83 | with idle connections and no waiters, it pops the most recent connection and changes nothing else; otherwise it appends exactly one new pending waiter, and starts a creation iff none is in flight and the counter is below the bound |
| ConnectionPool.ConnectionPool.CreationSucceeded | fastcache/connection_pool.py:53-60 | the flag is cleared, the counter rises by one, the connection is appended and the next waiter woken; the invariant total <= max holds |
| ConnectionPool.ConnectionPool.CreationFailed | fastcache/connection_pool.py:53-56 | the flag is cleared and nothing else changes |
| ConnectionPool.ConnectionPool.AcquireConnection | fastcache/connection_pool.py:87-89 | pops the right-most idle connection; an empty pool raises IndexError |
| ConnectionPool.ConnectionPool.ReleaseConnection | fastcache/connection_pool.py:91-94 | appends on the right (evicting the oldest when full), then wakes the most recent pending waiter |
| ConnectionPool.ConnectionPool.RemoveWaiter | fastcache/connection_pool.py:96-98 | removes the waiter, or raises ValueError when it is absent; either way it is not left in the deque |
| ConnectionPool.ConnectionPool.CancelWaiter | fastcache/connection_pool.py:145 | cancelling a waiter future changes a pending one to cancelled and leaves a done one as it is; nothing else changes |
| ConnectionPool.ConnectionContext.constructor | fastcache/connection_pool.py:115-122 | a context holds the pool, connection and waiter it is given, and its task is not cancelled |
| ConnectionPool.ConnectionContext.Cancel | fastcache/connection_pool.py:145 | cancelling the waiting task cancels its future if still pending and, either way, records the cancellation the resumed `await` raises |
| ConnectionPool.ConnectionContext.Enter | fastcache/connection_pool.py:134-150 | a ready context returns its connection; a waiting one always removes its own waiter first; a cancelled task or future then re-raises, even when the waiter had been resolved; otherwise it pops a connection, and an empty pool raises IndexError |
| ConnectionPool.ConnectionContext.EnterRewaking | fastcache/connection_pool.py:143-150 | as Enter, but a task cancelled after its waiter was resolved wakes the most recent pending waiter before re-raising (see Findings) |
| ConnectionPool.LostWakeupScenario | fastcache/connection_pool.py:143-150 | a task cancelled after its waiter was resolved re-raises and leaves the connection idle while two waiters are still pending (see Findings) |
| ConnectionPool.RewakeScenario | fastcache/connection_pool.py:143-150 | with the wake-up passed on, the next pending waiter's context enters with the idle connection |
| ConnectionPool.ConnectionContext.Exit | fastcache/connection_pool.py:127-128 | the connection goes back to the pool and the next waiter is woken |
| ConnectionPool.LifoScenario | tests/unit/test_connection_pool.py:106-131 | with one allowed connection, only the first of three contexts starts a creation; the waiters are served newest first; no waiter is left |
| ConnectionPool.CancellationScenario | tests/unit/test_connection_pool.py:133-188 | a cancelled waiter is skipped by the wake-up and still removed; the connection goes to the next pending waiter; no waiter is left |

## Left out

- I/O is not modelled: sockets, `create_protocol`, `connection_made`, `connection_lost`, TCP_NODELAY. The transport's writes are an output log (`written`), and the server's replies are parameters.
- Timeouts and cancellation timers (`OpTimeout`, `emcache.timeout`) are not modelled; they are timer and task-cancel semantics. Cancelling a waiting task is an explicit `ConnectionContext.Cancel` event, which cancels the waiter future through `CancelWaiter` and records the task's cancellation.
- Concurrent fan-out is not modelled (`create_task`, `asyncio.gather` and the cancel loop in `_fetch_many_command`). Only the merge of the already obtained per-node replies is.
- Key routing is not modelled: `Cluster.pick_node`, rendezvous hashing and murmur3 are foreign code.
- The Cython key check is modelled by its tested rule (1 to 250 bytes in 0x21..0x7e), not by its implementation.
- `execute` decodes the server's replies with a regular expression, `stats` extracts its `STAT` pairs with one, and `regex_memcached_responses` is one. None of these is modelled: the model returns the bytes sent and stops there.
- Autobatching and `gat`/`gats_many`'s routing are not modelled, and neither is `create_client` (SSL, SASL, autodiscovery).
- emcache/protocol.py is not part of this model. The reply words (STORED, NOT_STORED, EXISTS, NOT_FOUND, TOUCHED, DELETED, OK, END, VERSION) are taken to be the protocol's ASCII words.
- The multi-line `VALUE ... END` parser is not modelled: its Cython source is not available. `GetCmdReply` returns the raw bytes it was fed, without splitting them into keys, values and flags.
- fastcache/node.py is not modelled: it is a thin wrapper over the pool.
- Protocol.SetFrameExample: tests/unit/test_protocol.py:65 awaits `protocol.set_cmd(b"foo", b"value")`, but `MemcacheAsciiProtocol` defines no `set_cmd`. Read literally, that test raises AttributeError before anything is written. The model reads the call as `storage_command(b"set", b"foo", b"value", 0, 0, False)`, the only storage entry point, and checks the frame the test expects against that.
- Protocol.StoredExchange: models the same test through the same reading of `set_cmd` as `storage_command(b"set", …, 0, 0, False)`. The AttributeError the test as written would raise is not modelled.
- OneLineParser's `pos` field is not modelled: `feed_data` never reads it.
- LineParser.Feed: fastcache/protocol.py:101-109 drives the compiled `cyfastcache.AsciiOneLineParser`, whose source is not available. The model uses the pure-Python `OneLineParser` of benchmark/bench_parser_line.py in its place. The two are only known to agree on the chunkings of test_ascii_one_line_parser.py:11; in particular the Python version's IndexError on an empty first chunk may not be what the compiled parser does.
- EmcacheClient.ClassifyCounter: Python's `int()` also accepts surrounding whitespace, a `+` sign and `_` separators. The model reads only an optional `-` followed by decimal digits, so such replies are modelled as ValueError.
- Pipeline.Pipeline.Execute: when the connection fails after the join, the source keeps the stack. The model has no failing connection, so it always empties the stack once the bytes are produced.
- ConnectionPool.ConnectionPool.constructor: takes `max_connections` as a natural number. `deque(maxlen=...)` rejects negative bounds, and that error path is not modelled.
- ConnectionPool.ConnectionContext.Enter: runs once the waiter is done, which is the only point at which the awaiting task resumes. A call made while the waiter is still pending is excluded by precondition. Enter follows the code as written, including the lost wake-up under Findings. The corrected EnterRewaking sits beside it rather than replacing it, so the scenarios describe what the pool does.
- ConnectionPool.ConnectionContext.Exit: requires the context to hold a connection. `__aexit__` only runs after a successful `__aenter__`, which sets it.

## Findings

| source | as written | input that shows it | evidently intended | confidence | as-written member | corrected member |
|---|---|---|---|---|---|---|
| fastcache/connection_pool.py:143-149 | a cancelled `await self._waiter` removes the waiter and re-raises without passing on a wake-up the waiter had already received | one connection allowed, three contexts waiting; the creation succeeds and resolves the third context's waiter, and that task is cancelled before it resumes | hand the wake-up on to the next pending waiter, as `asyncio.Lock.acquire` does | not executed | ConnectionPool.LostWakeupScenario | ConnectionPool.ConnectionContext.EnterRewaking |
| benchmark/bench_validate_key.py:20 | `re.compile(b"^[\x21-\x7e]{1,250}$")` with `match`: `$` also matches before a final newline | `b"12345678\n"` (listed at line 16 of the same file) is accepted | accept exactly 1 to 250 bytes in 0x21..0x7e, e.g. with `\Z` or `fullmatch` | not executed | Keys.RegexAcceptsTrailingNewline | Keys.AnchoredRegexIsKeyRule |

=== FILE: bytes.dfy ===
/** Byte strings, ASCII literals, decimal numerals and space-separated tokens. */
module Bytes {
  import opened Wrappers

  type byte = x: int | 0 <= x < 256
  type bytes = seq<byte>

  const SP: byte := 32
  const CR: byte := 13
  const LF: byte := 10
  const MINUS: byte := 45
  const ZERO: byte := 48
  const CRLF: bytes := [CR, LF]

  /** The bytes of an ASCII string literal (`b"..."` in the source). */
  function Ascii(s: string): (r: bytes)
    ensures |r| == |s|
  {
    seq(|s|, i requires 0 <= i < |s| => (s[i] as int) % 256)
  }

  predicate IsDigit(b: byte) { ZERO <= b <= ZERO + 9 }

  predicate AllDigits(s: bytes) { forall i :: 0 <= i < |s| ==> IsDigit(s[i]) }

  /** `str(n).encode()` for a non-negative integer: the shortest decimal numeral. */
  function NatToDecimal(n: nat): (r: bytes)
    ensures |r| > 0 && AllDigits(r)
    ensures |r| > 1 ==> r[0] != ZERO
    decreases n
  {
    if n < 10 then [ZERO + n] else NatToDecimal(n / 10) + [ZERO + n % 10]
  }

  /** `str(i).encode()` (and `b"%a" % i`) for any integer: a '-' sign, then the numeral. */
  function IntToDecimal(i: int): (r: bytes)
    ensures |r| > 0
    ensures i < 0 <==> r[0] == MINUS
  {
    if i < 0 then [MINUS] + NatToDecimal(-i) else NatToDecimal(i)
  }

  /** The value of a string of decimal digits, most significant first. */
  function DigitsValue(s: bytes): nat
    requires AllDigits(s)
  {
    if s == [] then 0 else DigitsValue(s[..|s| - 1]) * 10 + (s[|s| - 1] - ZERO)
  }

  /** Decoding of a non-negative decimal numeral. */
  function ParseNat(s: bytes): (r: Option<nat>)
    ensures r.Some? <==> |s| > 0 && AllDigits(s)
  {
    if |s| > 0 && AllDigits(s) then Some(DigitsValue(s)) else None
  }

  /** Decoding of an optionally negative decimal numeral. */
  function ParseInt(s: bytes): (r: Option<int>)
    ensures r.Some? && |s| > 0 && s[0] != MINUS ==> r.value >= 0
  {
    if |s| > 0 && s[0] == MINUS then
      match ParseNat(s[1..])
      case Some(n) => Some(-(n as int))
      case None => None
    else
      match ParseNat(s)
      case Some(n) => Some(n)
      case None => None
  }

  lemma {:induction false} NatDecimalRoundTrip(n: nat)
    ensures ParseNat(NatToDecimal(n)) == Some(n)
    decreases n
  {
    if n >= 10 {
      var d := NatToDecimal(n);
      assert d[..|d| - 1] == NatToDecimal(n / 10);
      assert d[|d| - 1] == ZERO + n % 10;
      NatDecimalRoundTrip(n / 10);
      assert DigitsValue(NatToDecimal(n / 10)) == n / 10;
      assert DigitsValue(d) == (n / 10) * 10 + n % 10 == n;
      assert ParseNat(d) == Some(DigitsValue(d));
    }
  }

  lemma IntDecimalRoundTrip(i: int)
    ensures ParseInt(IntToDecimal(i)) == Some(i)
  {
    if i < 0 {
      assert IntToDecimal(i)[1..] == NatToDecimal(-i);
      NatDecimalRoundTrip(-i);
    } else {
      NatDecimalRoundTrip(i);
    }
  }

  /** A numeral never contains a space, CR or LF. */
  lemma DecimalHasNoSeparators(i: int)
    ensures SP !in IntToDecimal(i) && CR !in IntToDecimal(i) && LF !in IntToDecimal(i)
  {
    var r := IntToDecimal(i);
    if i < 0 {
      assert r == [MINUS] + NatToDecimal(-i);
      assert forall k :: 1 <= k < |r| ==> IsDigit(r[k]);
    }
  }

  /** Index of the first occurrence of `x` in `s`. */
  function FirstIndex(s: bytes, x: byte): (i: nat)
    requires x in s
    ensures i < |s| && s[i] == x && x !in s[..i]
  {
    if s[0] == x then 0
    else
      assert s == [s[0]] + s[1..];
      var j := FirstIndex(s[1..], x);
      assert s[..j + 1] == [s[0]] + s[1..][..j];
      1 + j
  }

  lemma FirstIndexAt(s: bytes, x: byte, i: nat)
    requires i < |s| && s[i] == x && x !in s[..i]
    ensures x in s && FirstIndex(s, x) == i
  {
  }

  /** `b" ".join(ts)`. */
  function JoinSpace(ts: seq<bytes>): bytes
  {
    if |ts| == 0 then []
    else if |ts| == 1 then ts[0]
    else ts[0] + [SP] + JoinSpace(ts[1..])
  }

  /** `s.split(b" ")`: the pieces between single spaces (never an empty list). */
  function SplitSpace(s: bytes): (r: seq<bytes>)
    ensures |r| >= 1
    decreases |s|
  {
    if SP !in s then [s]
    else
      var i := FirstIndex(s, SP);
      [s[..i]] + SplitSpace(s[i + 1..])
  }

  predicate NoSpace(t: bytes) { SP !in t }

  lemma JoinCons(t: bytes, ts: seq<bytes>)
    requires |ts| >= 1
    ensures JoinSpace([t] + ts) == t + [SP] + JoinSpace(ts)
  {
    assert ([t] + ts)[1..] == ts;
  }

  /** Joining two non-empty token lists puts exactly one space between them. */
  lemma {:induction false} JoinAppend(ts: seq<bytes>, us: seq<bytes>)
    requires |ts| >= 1 && |us| >= 1
    ensures JoinSpace(ts + us) == JoinSpace(ts) + [SP] + JoinSpace(us)
    decreases |ts|
  {
    if |ts| == 1 {
      assert ts + us == [ts[0]] + us;
      JoinCons(ts[0], us);
    } else {
      assert ts + us == [ts[0]] + (ts[1..] + us);
      JoinCons(ts[0], ts[1..] + us);
      JoinAppend(ts[1..], us);
      assert ts == [ts[0]] + ts[1..];
      JoinCons(ts[0], ts[1..]);
    }
  }

  /** A lower-case ASCII word (letters and '_') is one clean token: no space, no CR. */
  predicate IsWord(s: string)
  {
    forall i :: 0 <= i < |s| ==> 'a' <= s[i] <= 'z' || s[i] == '_'
  }

  lemma WordIsClean(s: string)
    requires IsWord(s)
    ensures NoSpace(Ascii(s)) && CR !in Ascii(s) && LF !in Ascii(s)
  {
    var a := Ascii(s);
    forall i | 0 <= i < |a| ensures a[i] != SP && a[i] != CR && a[i] != LF {
      assert 'a' <= s[i] <= 'z' || s[i] == '_';
    }
  }

  /** Joining never introduces a byte other than the space. */
  lemma {:induction false} JoinSpaceExcludes(ts: seq<bytes>, x: byte)
    requires x != SP
    requires forall k :: 0 <= k < |ts| ==> x !in ts[k]
    ensures x !in JoinSpace(ts)
  {
    if |ts| > 1 { JoinSpaceExcludes(ts[1..], x); }
  }

  /** Splitting undoes joining when no token holds a space. */
  lemma {:induction false} SplitJoin(ts: seq<bytes>)
    requires |ts| >= 1
    requires forall k :: 0 <= k < |ts| ==> NoSpace(ts[k])
    ensures SplitSpace(JoinSpace(ts)) == ts
  {
    if |ts| > 1 {
      var s := JoinSpace(ts);
      assert s == ts[0] + [SP] + JoinSpace(ts[1..]);
      assert s[|ts[0]|] == SP && s[..|ts[0]|] == ts[0];
      FirstIndexAt(s, SP, |ts[0]|);
      assert s[|ts[0]| + 1..] == JoinSpace(ts[1..]);
      SplitJoin(ts[1..]);
      assert ts == [ts[0]] + ts[1..];
    }
  }

  /** Joining undoes splitting, for every byte string. */
  lemma {:induction false} JoinSplit(s: bytes)
    ensures JoinSpace(SplitSpace(s)) == s
    decreases |s|
  {
    if SP in s {
      var i := FirstIndex(s, SP);
      JoinSplit(s[i + 1..]);
      var rest := SplitSpace(s[i + 1..]);
      assert ([s[..i]] + rest)[1..] == rest;
      assert s == s[..i] + [SP] + s[i + 1..];
    }
  }

  /** `b"".join(frames)`. */
  function Concat(frames: seq<bytes>): bytes
  {
    if frames == [] then [] else Concat(frames[..|frames| - 1]) + frames[|frames| - 1]
  }

  lemma {:induction false} ConcatAppend(a: seq<bytes>, b: seq<bytes>)
    ensures Concat(a + b) == Concat(a) + Concat(b)
    decreases |b|
  {
    if b == [] {
      assert a + b == a;
    } else {
      var c := a + b;
      assert c[..|c| - 1] == a + b[..|b| - 1];
      ConcatAppend(a, b[..|b| - 1]);
    }
  }

  /** The length of the concatenation is the sum of the frame lengths. */
  function TotalLength(frames: seq<bytes>): nat
  {
    if frames == [] then 0 else TotalLength(frames[..|frames| - 1]) + |frames[|frames| - 1]|
  }

  lemma {:induction false} ConcatLength(frames: seq<bytes>)
    ensures |Concat(frames)| == TotalLength(frames)
    decreases |frames|
  {
    if frames != [] { ConcatLength(frames[..|frames| - 1]); }
  }

  // ---------------------------------------------------------------------------
  // UTF-8 (`bytes.decode()` with the default strict codec)
  // ---------------------------------------------------------------------------

  predicate InRange(b: byte, lo: byte, hi: byte) { lo <= b <= hi }

  predicate IsContinuation(b: byte) { InRange(b, 0x80, 0xBF) }

  /** The length of the well-formed UTF-8 sequence at the start of `s`, or 0 when there is
      none, following the byte-sequence table of section 4 of RFC 3629 (no overlong forms,
      no surrogates, nothing above U+10FFFF). */
  function LeadLength(s: bytes): (n: nat)
    ensures n <= |s| && n <= 4
  {
    if s == [] then 0
    else if s[0] < 0x80 then 1
    else if InRange(s[0], 0xC2, 0xDF) then
      if |s| >= 2 && IsContinuation(s[1]) then 2 else 0
    else if s[0] == 0xE0 then
      if |s| >= 3 && InRange(s[1], 0xA0, 0xBF) && IsContinuation(s[2]) then 3 else 0
    else if InRange(s[0], 0xE1, 0xEC) || InRange(s[0], 0xEE, 0xEF) then
      if |s| >= 3 && IsContinuation(s[1]) && IsContinuation(s[2]) then 3 else 0
    else if s[0] == 0xED then
      if |s| >= 3 && InRange(s[1], 0x80, 0x9F) && IsContinuation(s[2]) then 3 else 0
    else if s[0] == 0xF0 then
      if |s| >= 4 && InRange(s[1], 0x90, 0xBF) && IsContinuation(s[2]) && IsContinuation(s[3]) then 4 else 0
    else if InRange(s[0], 0xF1, 0xF3) then
      if |s| >= 4 && IsContinuation(s[1]) && IsContinuation(s[2]) && IsContinuation(s[3]) then 4 else 0
    else if s[0] == 0xF4 then
      if |s| >= 4 && InRange(s[1], 0x80, 0x8F) && IsContinuation(s[2]) && IsContinuation(s[3]) then 4 else 0
    else 0
  }

  /** Bytes after a complete sequence do not change it. */
  lemma LeadLengthExtends(s: bytes, t: bytes)
    requires LeadLength(s) > 0
    ensures LeadLength(s + t) == LeadLength(s)
  {
    assert (s + t)[0] == s[0];
    assert LeadLength(s) >= 2 ==> (s + t)[1] == s[1];
    assert LeadLength(s) >= 3 ==> (s + t)[2] == s[2];
    assert LeadLength(s) >= 4 ==> (s + t)[3] == s[3];
  }

  /** `s.decode()` succeeds: `s` is a run of well-formed sequences with nothing left over. */
  predicate IsUtf8(s: bytes)
    decreases |s|
  {
    s == [] || (LeadLength(s) > 0 && IsUtf8(s[LeadLength(s)..]))
  }

  /** Every 7-bit ASCII string decodes. */
  lemma {:induction false} AsciiIsUtf8(s: bytes)
    requires forall i :: 0 <= i < |s| ==> s[i] < 0x80
    ensures IsUtf8(s)
  {
    if s != [] {
      AsciiIsUtf8(s[1..]);
    }
  }

  /** Decoding is per sequence: after a well-formed prefix, the whole decodes exactly when
      the rest does. */
  lemma {:induction false} Utf8Append(a: bytes, b: bytes)
    requires IsUtf8(a)
    decreases |a|
    ensures IsUtf8(a + b) <==> IsUtf8(b)
  {
    if a != [] {
      var n := LeadLength(a);
      LeadLengthExtends(a, b);
      assert (a + b)[n..] == a[n..] + b;
      Utf8Append(a[n..], b);
    } else {
      assert a + b == b;
    }
  }

  /** A two-byte letter decodes; a lone continuation byte, a truncated sequence, an
      overlong NUL and an encoded surrogate do not. */
  lemma Utf8Examples()
    ensures IsUtf8([0xC3, 0xA9])
    ensures !IsUtf8([0x80]) && !IsUtf8([0xC3]) && !IsUtf8([0xC0, 0x80]) && !IsUtf8([0xED, 0xA0, 0x80])
  {
  }
}

=== FILE: connection_pool.dfy ===
/** The fastcache `ConnectionPool`: idle connections in a bounded LIFO deque, a deque of
    waiter futures, a connection counter and a single "creation in progress" flag. Every
    asyncio callback becomes one method that runs to completion: creating a context,
    the background creation succeeding or failing, acquiring, releasing, removing a waiter,
    and the enter and exit of the contexts. Futures are waiter ids with a state; the
    protocol objects are connection ids. */
module ConnectionPool {
  import opened Wrappers

  /** A connection, by identity. */
  type Conn = nat

  /** A waiter future, by identity. */
  type WaiterId = nat

  /** A waiter future is done once it is resolved or cancelled. */
  datatype WaiterState = Pending | Resolved | Cancelled

  predicate IsPending(status: map<WaiterId, WaiterState>, w: WaiterId)
  {
    w in status && status[w] == Pending
  }

  predicate Distinct(s: seq<WaiterId>)
  {
    forall i, j :: 0 <= i < j < |s| ==> s[i] != s[j]
  }

  /** `append` on a deque whose `maxlen` is `maxlen`: the element joins on the right, and
      only the right-most `maxlen` elements are kept. */
  function BoundedAppend(q: seq<Conn>, x: Conn, maxlen: nat): (r: seq<Conn>)
    ensures |r| == if |q| + 1 <= maxlen then |q| + 1 else maxlen
    ensures r == (q + [x])[|q| + 1 - |r|..]
  {
    var s := q + [x];
    if |s| <= maxlen then s else s[|s| - maxlen..]
  }

  /** Below the bound nothing is evicted; at the bound the oldest (left-most) element is
      evicted; with a positive bound the new element is always the right-most one. */
  lemma BoundedAppendEvictsOldest(q: seq<Conn>, x: Conn, maxlen: nat)
    requires |q| <= maxlen
    ensures |q| < maxlen ==> BoundedAppend(q, x, maxlen) == q + [x]
    ensures 0 < |q| == maxlen ==> BoundedAppend(q, x, maxlen) == q[1..] + [x]
    ensures 0 < maxlen ==> BoundedAppend(q, x, maxlen)[|BoundedAppend(q, x, maxlen)| - 1] == x
    ensures maxlen == 0 ==> BoundedAppend(q, x, maxlen) == []
  {
    if 0 < |q| == maxlen {
      assert (q + [x])[1..] == q[1..] + [x];
    }
  }

  /** The position of the first occurrence of `x`. */
  function IndexOf(s: seq<WaiterId>, x: WaiterId): (i: nat)
    requires x in s
    ensures i < |s| && s[i] == x && x !in s[..i]
  {
    if s[0] == x then 0
    else
      var k := IndexOf(s[1..], x);
      assert s[1..][..k] == s[1..k + 1];
      1 + k
  }

  /** `deque.remove`: the first occurrence of `x` is taken out; a missing `x` raises
      ValueError. */
  function RemoveFirst(s: seq<WaiterId>, x: WaiterId): (r: Result<seq<WaiterId>, Error>)
    ensures r.Err? <==> x !in s
    ensures r.Err? ==> r.error == ValueError(NotInDeque)
    ensures r.Ok? ==> r.value == s[..IndexOf(s, x)] + s[IndexOf(s, x) + 1..]
  {
    if x !in s then Err(ValueError(NotInDeque))
    else
      var i := IndexOf(s, x);
      Ok(s[..i] + s[i + 1..])
  }

  /** Removing a member of a duplicate-free deque leaves it duplicate-free, one shorter, with
      only old members, and without `x`: no waiter is left behind. */
  lemma RemoveFirstFacts(s: seq<WaiterId>, x: WaiterId)
    requires Distinct(s) && x in s
    ensures RemoveFirst(s, x).Ok?
    ensures |RemoveFirst(s, x).value| == |s| - 1
    ensures x !in RemoveFirst(s, x).value
    ensures Distinct(RemoveFirst(s, x).value)
    ensures forall y :: y in RemoveFirst(s, x).value ==> y in s
  {
    var i := IndexOf(s, x);
    var r := s[..i] + s[i + 1..];
    assert forall k :: 0 <= k < |r| ==> r[k] == (if k < i then s[k] else s[k + 1]);
    forall y | y in r ensures y in s && y != x {
      var k :| 0 <= k < |r| && r[k] == y;
    }
  }

  /** The waiter `_wakeup_next_waiter` resolves, as a position: the right-most waiter whose
      future is not done, if any. */
  function LastPending(ws: seq<WaiterId>, status: map<WaiterId, WaiterState>): (r: Option<nat>)
    ensures r.Some? ==> r.value < |ws| && IsPending(status, ws[r.value])
    ensures r.Some? ==> forall j :: r.value < j < |ws| ==> !IsPending(status, ws[j])
    ensures r.None? <==> forall j :: 0 <= j < |ws| ==> !IsPending(status, ws[j])
    decreases |ws|
  {
    if ws == [] then None
    else if IsPending(status, ws[|ws| - 1]) then Some(|ws| - 1)
    else LastPending(ws[..|ws| - 1], status)
  }

  /** The waiter states after a wake-up. */
  function AfterWakeup(ws: seq<WaiterId>, status: map<WaiterId, WaiterState>): map<WaiterId, WaiterState>
  {
    match LastPending(ws, status)
    case None => status
    case Some(i) => status[ws[i] := Resolved]
  }

  /** LIFO wake-up: the most recently appended waiter still pending is the one resolved, and
      no other waiter changes state; when every waiter is done, nothing changes. */
  lemma WakeupIsLifo(ws: seq<WaiterId>, status: map<WaiterId, WaiterState>, k: nat)
    requires k < |ws| && IsPending(status, ws[k])
    requires forall j :: k < j < |ws| ==> !IsPending(status, ws[j])
    ensures AfterWakeup(ws, status) == status[ws[k] := Resolved]
  {
    var i := LastPending(ws, status).value;
    assert !(i < k) && !(k < i);
  }

  lemma WakeupWhenAllDone(ws: seq<WaiterId>, status: map<WaiterId, WaiterState>)
    requires forall j :: 0 <= j < |ws| ==> !IsPending(status, ws[j])
    ensures AfterWakeup(ws, status) == status
  {
  }

  class ConnectionPool {
    const maxConnections: nat
    var totalConnections: nat
    /** Whether a background connection creation is in flight. */
    var creating: bool
    /** Idle connections; the right end is the most recently released one. */
    var pool: seq<Conn>
    /** Waiter futures in the order they were appended. */
    var waiters: seq<WaiterId>
    /** The state of every waiter future created so far. */
    var status: map<WaiterId, WaiterState>
    /** The id the next waiter future gets. */
    var nextWaiter: nat

    /** The counter and the creation in flight never exceed the bound, so at most
        `maxConnections` connections are ever created; each waiter appears once. */
    ghost predicate Valid()
      reads this
    {
      && totalConnections + (if creating then 1 else 0) <= maxConnections
      && |pool| <= maxConnections
      && Distinct(waiters)
      && (forall i :: 0 <= i < |waiters| ==> waiters[i] in status)
      && (forall w :: w in status ==> w < nextWaiter)
    }

    constructor(maxConnections: nat)
      ensures Valid()
      ensures this.maxConnections == maxConnections && totalConnections == 0 && !creating
      ensures pool == [] && waiters == [] && status == map[] && nextWaiter == 0
    {
      this.maxConnections := maxConnections;
      totalConnections := 0;
      creating := false;
      pool := [];
      waiters := [];
      status := map[];
      nextWaiter := 0;
    }

    /** `_wakeup_next_waiter`: the waiters are scanned from the right, and the first one
        not done is resolved. */
    method WakeupNextWaiter() returns (woken: Option<nat>)
      modifies this
      ensures woken == LastPending(waiters, old(status))
      ensures status == AfterWakeup(waiters, old(status))
      ensures waiters == old(waiters) && pool == old(pool) && nextWaiter == old(nextWaiter)
      ensures totalConnections == old(totalConnections) && creating == old(creating)
    {
      if |waiters| == 0 {
        return None;
      }
      var i := |waiters|;
      while i > 0
        invariant 0 <= i <= |waiters|
        invariant forall j :: i <= j < |waiters| ==> !IsPending(status, waiters[j])
        invariant status == old(status)
      {
        i := i - 1;
        if IsPending(status, waiters[i]) {
          WakeupIsLifo(waiters, status, i);
          status := status[waiters[i] := Resolved];
          return Some(i);
        }
      }
      return None;
    }

    /** A done waiter stays done, so resolving the one not done keeps the invariant. */
    lemma WakeupKeepsValid(ws: seq<WaiterId>, st: map<WaiterId, WaiterState>)
      requires forall i :: 0 <= i < |ws| ==> ws[i] in st
      ensures forall w :: w in AfterWakeup(ws, st) <==> w in st
    {
    }

    /** `create_connection_context`. With idle connections and nobody waiting, the most
        recently released connection is popped and nothing else changes. Otherwise exactly one
        new pending waiter is appended, and a creation is started only when none is in flight
        and the counter is below the bound. */
    method CreateConnectionContext() returns (ctx: ConnectionContext, startCreation: bool)
      requires Valid()
      modifies this
      ensures Valid() && fresh(ctx) && ctx.pool == this && !ctx.taskCancelled
      ensures totalConnections == old(totalConnections)
      ensures |old(pool)| > 0 && |old(waiters)| == 0 ==>
                && ctx.waiter == None && ctx.connection == Some(old(pool)[|old(pool)| - 1])
                && pool == old(pool)[..|old(pool)| - 1] && !startCreation
                && waiters == old(waiters) && status == old(status) && nextWaiter == old(nextWaiter)
                && creating == old(creating)
      ensures !(|old(pool)| > 0 && |old(waiters)| == 0) ==>
                && ctx.waiter == Some(old(nextWaiter)) && ctx.connection == None
                && waiters == old(waiters) + [old(nextWaiter)]
                && status == old(status)[old(nextWaiter) := Pending] && old(nextWaiter) !in old(status)
                && nextWaiter == old(nextWaiter) + 1 && pool == old(pool)
                && startCreation == (!old(creating) && old(totalConnections) < maxConnections)
                && creating == (old(creating) || startCreation)
    {
      if |pool| > 0 && |waiters| == 0 {
        var connection := pool[|pool| - 1];
        pool := pool[..|pool| - 1];
        ctx := new ConnectionContext(this, Some(connection), None);
        startCreation := false;
        return;
      }
      var waiter := nextWaiter;
      nextWaiter := nextWaiter + 1;
      status := status[waiter := Pending];
      waiters := waiters + [waiter];
      startCreation := false;
      if !creating && totalConnections < maxConnections {
        creating := true;
        startCreation := true;
      }
      ctx := new ConnectionContext(this, None, Some(waiter));
    }

    /** `_create_new_connection` once the connection is made: the flag is cleared, the
        counter rises by one, the connection joins the pool and a waiter is woken. */
    method CreationSucceeded(connection: Conn) returns (woken: Option<nat>)
      requires Valid() && creating
      modifies this
      ensures Valid()
      ensures !creating && totalConnections == old(totalConnections) + 1
      ensures pool == BoundedAppend(old(pool), connection, maxConnections)
      ensures woken == LastPending(waiters, old(status)) && status == AfterWakeup(waiters, old(status))
      ensures waiters == old(waiters) && nextWaiter == old(nextWaiter)
    {
      creating := false;
      totalConnections := totalConnections + 1;
      pool := BoundedAppend(pool, connection, maxConnections);
      WakeupKeepsValid(waiters, status);
      woken := WakeupNextWaiter();
    }

    /** `_create_new_connection` when the connection cannot be made: only the flag is
        cleared (the exception goes to the background task). */
    method CreationFailed()
      requires Valid() && creating
      modifies this
      ensures Valid()
      ensures !creating && totalConnections == old(totalConnections)
      ensures pool == old(pool) && waiters == old(waiters) && status == old(status) && nextWaiter == old(nextWaiter)
    {
      creating := false;
    }

    /** `acquire_connection`: the right-most idle connection is popped; an empty pool raises
        IndexError. */
    method AcquireConnection() returns (r: Result<Conn, Error>)
      requires Valid()
      modifies this
      ensures Valid()
      ensures r.Err? <==> |old(pool)| == 0
      ensures r.Err? ==> r.error == IndexError && pool == old(pool)
      ensures r.Ok? ==> old(pool) == pool + [r.value]
      ensures waiters == old(waiters) && status == old(status) && nextWaiter == old(nextWaiter)
      ensures totalConnections == old(totalConnections) && creating == old(creating)
    {
      if |pool| == 0 {
        return Err(IndexError);
      }
      r := Ok(pool[|pool| - 1]);
      pool := pool[..|pool| - 1];
    }

    /** `release_connection`: the connection is appended on the right (evicting the oldest
        when the pool is full) and a waiter is woken. */
    method ReleaseConnection(connection: Conn) returns (woken: Option<nat>)
      requires Valid()
      modifies this
      ensures Valid()
      ensures pool == BoundedAppend(old(pool), connection, maxConnections)
      ensures woken == LastPending(waiters, old(status)) && status == AfterWakeup(waiters, old(status))
      ensures waiters == old(waiters) && nextWaiter == old(nextWaiter)
      ensures totalConnections == old(totalConnections) && creating == old(creating)
    {
      pool := BoundedAppend(pool, connection, maxConnections);
      WakeupKeepsValid(waiters, status);
      woken := WakeupNextWaiter();
    }

    /** `remove_waiter`: the waiter leaves the deque; one that is not there raises
        ValueError. Either way it is not in the deque afterwards. */
    method RemoveWaiter(w: WaiterId) returns (o: Outcome<Error>)
      requires Valid()
      modifies this
      ensures Valid()
      ensures w !in waiters
      ensures RemoveFirst(old(waiters), w).Err? ==> o == Fail(ValueError(NotInDeque)) && waiters == old(waiters)
      ensures RemoveFirst(old(waiters), w).Ok? ==> o == Pass && waiters == RemoveFirst(old(waiters), w).value
      ensures pool == old(pool) && status == old(status) && nextWaiter == old(nextWaiter)
      ensures totalConnections == old(totalConnections) && creating == old(creating)
    {
      var removed := RemoveFirst(waiters, w);
      if removed.Err? {
        return Fail(removed.error);
      }
      RemoveFirstFacts(waiters, w);
      waiters := removed.value;
      return Pass;
    }

    /** `Future.cancel()` on a waiter future: a pending one becomes cancelled; one already
        done cannot be cancelled and keeps its state. */
    method CancelWaiter(w: WaiterId)
      requires Valid()
      modifies this
      ensures Valid()
      ensures status == if IsPending(old(status), w) then old(status)[w := WaiterState.Cancelled] else old(status)
      ensures pool == old(pool) && waiters == old(waiters) && nextWaiter == old(nextWaiter)
      ensures totalConnections == old(totalConnections) && creating == old(creating)
    {
      if IsPending(status, w) {
        status := status[w := WaiterState.Cancelled];
      }
    }
  }

  /** A connection context: with no waiter it is `ConnectionContext`, holding a connection
      taken on the fast path; with a waiter it is `WaitingForAConnectionContext`, which gets
      its connection once the waiter is done. */
  class ConnectionContext {
    const pool: ConnectionPool
    var connection: Option<Conn>
    const waiter: Option<WaiterId>
    /** Whether the task running `__aenter__` has been asked to cancel. */
    var taskCancelled: bool

    constructor(pool: ConnectionPool, connection: Option<Conn>, waiter: Option<WaiterId>)
      ensures this.pool == pool && this.connection == connection && this.waiter == waiter
      ensures !taskCancelled
    {
      this.pool := pool;
      this.connection := connection;
      this.waiter := waiter;
      taskCancelled := false;
    }

    /** `Task.cancel()` on the task awaiting this context's waiter. A pending waiter future is
        cancelled. One already resolved cannot be, but the task still holds the cancellation
        request, so its `await` raises CancelledError either way once it resumes. */
    method Cancel()
      requires pool.Valid() && waiter.Some?
      modifies this, pool
      ensures pool.Valid() && taskCancelled && connection == old(connection)
      ensures pool.status == if IsPending(old(pool.status), waiter.value) then old(pool.status)[waiter.value := WaiterState.Cancelled]
                             else old(pool.status)
      ensures pool.pool == old(pool.pool) && pool.waiters == old(pool.waiters) && pool.nextWaiter == old(pool.nextWaiter)
      ensures pool.totalConnections == old(pool.totalConnections) && pool.creating == old(pool.creating)
    {
      pool.CancelWaiter(waiter.value);
      taskCancelled := true;
    }

    /** `__aenter__`, resumed once the waiter (if any) is done. A ready context returns its
        connection. A waiting one first removes its own waiter, whether it was resolved or
        cancelled, then re-raises a cancellation of its task or its future, or pops a
        connection. A task cancelled after its waiter was resolved re-raises too, and the
        wake-up it received is not passed on. */
    method Enter() returns (r: Result<Conn, Error>)
      requires pool.Valid()
      requires waiter.None? ==> connection.Some?
      requires waiter.Some? ==> waiter.value in pool.status && pool.status[waiter.value] != Pending
      modifies this, pool
      ensures pool.Valid()
      ensures waiter.None? ==> r == Ok(old(connection).value) && pool.pool == old(pool.pool) && pool.waiters == old(pool.waiters)
      ensures waiter.None? ==> connection == old(connection)
      ensures waiter.Some? ==> waiter.value !in pool.waiters
      ensures waiter.Some? && waiter.value in old(pool.waiters) ==>
                pool.waiters == RemoveFirst(old(pool.waiters), waiter.value).value
      ensures waiter.Some? && waiter.value !in old(pool.waiters) ==>
                r == Err(ValueError(NotInDeque)) && pool.pool == old(pool.pool)
      ensures waiter.Some? && waiter.value in old(pool.waiters) &&
              (old(taskCancelled) || old(pool.status)[waiter.value] == WaiterState.Cancelled) ==>
                r == Err(Error.Cancelled) && pool.pool == old(pool.pool)
      ensures waiter.Some? && waiter.value in old(pool.waiters) && !old(taskCancelled) &&
              old(pool.status)[waiter.value] == Resolved ==>
                (r.Ok? <==> |old(pool.pool)| > 0) && (r.Err? ==> r.error == IndexError)
      ensures waiter.Some? && r.Ok? ==> old(pool.pool) == pool.pool + [r.value] && connection == Some(r.value)
      ensures r.Err? ==> connection == old(connection) && pool.pool == old(pool.pool)
      ensures waiter.Some? && waiter.value !in old(pool.waiters) ==> pool.waiters == old(pool.waiters)
      ensures taskCancelled == old(taskCancelled)
      ensures pool.status == old(pool.status) && pool.nextWaiter == old(pool.nextWaiter)
      ensures pool.totalConnections == old(pool.totalConnections) && pool.creating == old(pool.creating)
    {
      if waiter.None? {
        return Ok(connection.value);
      }
      var w := waiter.value;
      var removed := pool.RemoveWaiter(w);
      if removed.Fail? {
        return Err(removed.error);
      }
      if taskCancelled || pool.status[w] == WaiterState.Cancelled {
        return Err(Error.Cancelled);
      }
      r := pool.AcquireConnection();
      if r.Ok? {
        connection := Some(r.value);
      }
    }

    /** `__aenter__` as it is evidently meant to work: as `Enter`, except that a task cancelled
        after its waiter was resolved passes that wake-up on to the most recent pending
        waiter before re-raising, as `asyncio.Lock.acquire` does, so a released connection
        is not left idle while others wait. */
    method EnterRewaking() returns (r: Result<Conn, Error>, woken: Option<nat>)
      requires pool.Valid()
      requires waiter.None? ==> connection.Some?
      requires waiter.Some? ==> waiter.value in pool.status && pool.status[waiter.value] != Pending
      modifies this, pool
      ensures pool.Valid()
      ensures waiter.None? ==> r == Ok(old(connection).value) && pool.pool == old(pool.pool) && pool.waiters == old(pool.waiters)
      ensures waiter.None? ==> connection == old(connection)
      ensures waiter.Some? ==> waiter.value !in pool.waiters
      ensures waiter.Some? && waiter.value in old(pool.waiters) ==>
                pool.waiters == RemoveFirst(old(pool.waiters), waiter.value).value
      ensures waiter.Some? && waiter.value !in old(pool.waiters) ==>
                r == Err(ValueError(NotInDeque)) && pool.pool == old(pool.pool) && pool.waiters == old(pool.waiters)
      ensures waiter.Some? && waiter.value in old(pool.waiters) &&
              (old(taskCancelled) || old(pool.status)[waiter.value] == WaiterState.Cancelled) ==>
                r == Err(Error.Cancelled) && pool.pool == old(pool.pool)
      ensures waiter.Some? && waiter.value in old(pool.waiters) && old(taskCancelled) &&
              old(pool.status)[waiter.value] == Resolved ==>
                woken == LastPending(pool.waiters, old(pool.status)) &&
                pool.status == AfterWakeup(pool.waiters, old(pool.status))
      ensures !(waiter.Some? && waiter.value in old(pool.waiters) && old(taskCancelled) &&
                old(pool.status)[waiter.value] == Resolved) ==>
                woken == None && pool.status == old(pool.status)
      ensures waiter.Some? && waiter.value in old(pool.waiters) && !old(taskCancelled) &&
              old(pool.status)[waiter.value] == Resolved ==>
                (r.Ok? <==> |old(pool.pool)| > 0) && (r.Err? ==> r.error == IndexError)
      ensures waiter.Some? && r.Ok? ==> old(pool.pool) == pool.pool + [r.value]
      ensures r.Ok? ==> connection == Some(r.value)
      ensures r.Err? ==> connection == old(connection) && pool.pool == old(pool.pool)
      ensures taskCancelled == old(taskCancelled)
      ensures pool.nextWaiter == old(pool.nextWaiter)
      ensures pool.totalConnections == old(pool.totalConnections) && pool.creating == old(pool.creating)
    {
      var handedWakeup := waiter.Some? && waiter.value in pool.waiters && taskCancelled &&
                          pool.status[waiter.value] == Resolved;
      r := Enter();
      woken := None;
      if handedWakeup {
        pool.WakeupKeepsValid(pool.waiters, pool.status);
        woken := pool.WakeupNextWaiter();
      }
    }

    /** `__aexit__`: the connection is given back to the pool. */
    method Exit() returns (woken: Option<nat>)
      requires pool.Valid() && connection.Some?
      modifies pool
      ensures pool.Valid()
      ensures pool.pool == BoundedAppend(old(pool.pool), connection.value, pool.maxConnections)
      ensures woken == LastPending(pool.waiters, old(pool.status))
      ensures pool.status == AfterWakeup(pool.waiters, old(pool.status))
      ensures pool.waiters == old(pool.waiters) && pool.totalConnections == old(pool.totalConnections)
      ensures pool.creating == old(pool.creating) && pool.nextWaiter == old(pool.nextWaiter)
    {
      woken := pool.ReleaseConnection(connection.value);
    }
  }

  /** In a duplicate-free deque, removing the right-most waiter drops the last element. */
  lemma RemoveLast(ws: seq<WaiterId>)
    requires Distinct(ws) && |ws| > 0
    ensures RemoveFirst(ws, ws[|ws| - 1]) == Ok(ws[..|ws| - 1])
  {
    var k := |ws| - 1;
    var i := IndexOf(ws, ws[k]);
    assert i == k;
    assert ws[..k] + ws[k + 1..] == ws[..k];
  }

  /** One hand-over of a single shared connection while every queued waiter is pending: the
      holder exits, which resolves the most recent waiter, and that waiter's context enters
      and gets the connection; its waiter leaves the deque and the others stay pending. */
  method HandOver(p: ConnectionPool, holder: ConnectionContext, next: ConnectionContext, c: Conn)
    returns (resolved: WaiterId)
    requires p.Valid() && p.maxConnections == 1 && p.pool == [] && |p.waiters| > 0
    requires forall i :: 0 <= i < |p.waiters| ==> IsPending(p.status, p.waiters[i])
    requires holder.pool == p && holder.connection == Some(c)
    requires next.pool == p && next.waiter == Some(p.waiters[|p.waiters| - 1]) && !next.taskCancelled
    modifies p, next
    ensures p.Valid() && p.pool == [] && p.waiters == old(p.waiters)[..|old(p.waiters)| - 1]
    ensures forall i :: 0 <= i < |p.waiters| ==> IsPending(p.status, p.waiters[i])
    ensures resolved == old(p.waiters)[|old(p.waiters)| - 1] && next.connection == Some(c)
  {
    var k := |p.waiters| - 1;
    WakeupIsLifo(p.waiters, p.status, k);
    var w := holder.Exit();
    resolved := p.waiters[w.value];
    assert p.pool == [c];
    RemoveLast(p.waiters);
    var r := next.Enter();
    assert forall i :: 0 <= i < |p.waiters| ==> p.waiters[i] == old(p.waiters)[i];
  }

  /** Three contexts on an empty pool that allows one connection: only the first starts a
      creation, and when it succeeds the third context's waiter is the one resolved. */
  method ThreeWaitingResolved(c: Conn)
    returns (p: ConnectionPool, ctx1: ConnectionContext, ctx2: ConnectionContext, ctx3: ConnectionContext,
             started: seq<bool>, first: WaiterId)
    ensures fresh(p) && fresh(ctx1) && fresh(ctx2) && fresh(ctx3)
    ensures ctx1 != ctx2 && ctx2 != ctx3 && ctx1 != ctx3
    ensures p.Valid() && p.maxConnections == 1 && p.pool == [c] && p.waiters == [0, 1, 2]
    ensures IsPending(p.status, 0) && IsPending(p.status, 1) && 2 in p.status && p.status[2] == Resolved
    ensures ctx1.pool == p && ctx2.pool == p && ctx3.pool == p
    ensures ctx1.waiter == Some(0) && ctx2.waiter == Some(1) && ctx3.waiter == Some(2)
    ensures !ctx1.taskCancelled && !ctx2.taskCancelled && !ctx3.taskCancelled
    ensures started == [true, false, false] && first == 2
  {
    p := new ConnectionPool(1);
    var s1, s2, s3;
    ctx1, s1 := p.CreateConnectionContext();
    ctx2, s2 := p.CreateConnectionContext();
    ctx3, s3 := p.CreateConnectionContext();
    started := [s1, s2, s3];
    assert p.waiters == [0, 1, 2];
    WakeupIsLifo(p.waiters, p.status, 2);
    var w := p.CreationSucceeded(c);
    first := p.waiters[w.value];
  }

  /** Continuing from there, the third context enters with the new connection, leaving the
      first two waiters pending. */
  method ThirdServedFirst(c: Conn)
    returns (p: ConnectionPool, ctx1: ConnectionContext, ctx2: ConnectionContext, ctx3: ConnectionContext,
             started: seq<bool>, first: WaiterId)
    ensures fresh(p) && fresh(ctx1) && fresh(ctx2) && fresh(ctx3)
    ensures p.Valid() && p.maxConnections == 1 && p.pool == [] && p.waiters == [0, 1]
    ensures forall i :: 0 <= i < |p.waiters| ==> IsPending(p.status, p.waiters[i])
    ensures ctx1.pool == p && ctx2.pool == p && ctx3.pool == p
    ensures ctx1.waiter == Some(0) && ctx2.waiter == Some(1) && ctx3.connection == Some(c)
    ensures !ctx1.taskCancelled && !ctx2.taskCancelled
    ensures ctx1 != ctx2 && ctx2 != ctx3 && ctx1 != ctx3
    ensures started == [true, false, false] && first == 2
  {
    p, ctx1, ctx2, ctx3, started, first := ThreeWaitingResolved(c);
    RemoveLast(p.waiters);
    var r3 := ctx3.Enter();
    assert r3.Ok? && [c] == p.pool + [r3.value];
    assert p.pool == [] && [c][0] == (p.pool + [r3.value])[0] == r3.value;
    assert ctx3.connection == Some(r3.value);
    assert p.waiters == [0, 1] && p.pool == [];
  }

  /** A task cancelled after its waiter was resolved, as written: the third context's task is
      cancelled after the new connection resolved its waiter but before it resumes. It
      re-raises the cancellation and removes its waiter, and the wake-up is lost: the
      connection stays idle in the pool while both remaining waiters are still pending. */
  method LostWakeupScenario(c: Conn) returns (p: ConnectionPool, cancelled: Result<Conn, Error>)
    ensures fresh(p) && p.Valid()
    ensures cancelled == Err(Error.Cancelled)
    ensures p.pool == [c] && p.waiters == [0, 1]
    ensures forall i :: 0 <= i < |p.waiters| ==> IsPending(p.status, p.waiters[i])
  {
    var ctx1, ctx2, ctx3, started, first;
    p, ctx1, ctx2, ctx3, started, first := ThreeWaitingResolved(c);
    ctx3.Cancel();
    assert p.status[2] == Resolved;
    RemoveLast(p.waiters);
    cancelled := ctx3.Enter();
    assert p.waiters == [0, 1];
  }

  /** The same cancellation with the wake-up passed on: the second context's waiter is
      resolved instead, while the connection stays idle. */
  method RewakeOnCancel(c: Conn) returns (p: ConnectionPool, ctx2: ConnectionContext, cancelled: Result<Conn, Error>)
    ensures fresh(p) && p.Valid() && p.maxConnections == 1
    ensures cancelled == Err(Error.Cancelled)
    ensures p.pool == [c] && p.waiters == [0, 1] && IsPending(p.status, 0)
    ensures 1 in p.status && p.status[1] == Resolved
    ensures ctx2.pool == p && ctx2.waiter == Some(1) && !ctx2.taskCancelled
  {
    var ctx1, ctx3, started, first;
    p, ctx1, ctx2, ctx3, started, first := ThreeWaitingResolved(c);
    ctx3.Cancel();
    assert p.status[2] == Resolved;
    RemoveLast(p.waiters);
    WakeupIsLifo([0, 1], p.status, 1);
    var w;
    cancelled, w := ctx3.EnterRewaking();
  }

  /** After the wake-up is passed on, the second context enters with the idle connection. */
  method RewakeScenario(c: Conn) returns (p: ConnectionPool, cancelled: Result<Conn, Error>, got: Result<Conn, Error>)
    ensures fresh(p) && p.Valid()
    ensures cancelled == Err(Error.Cancelled) && got == Ok(c)
    ensures p.pool == [] && p.waiters == [0] && IsPending(p.status, 0)
  {
    var ctx2;
    p, ctx2, cancelled := RewakeOnCancel(c);
    RemoveLast(p.waiters);
    got := ctx2.Enter();
    assert got.Ok? && [c] == p.pool + [got.value];
    assert p.pool == [] && [c][0] == (p.pool + [got.value])[0] == got.value;
    assert p.waiters == [0];
  }

  /** The LIFO unit scenario: after the third context, each exit hands the one connection to
      the next most recent waiter, so the waiters are resolved newest first. In the end no
      waiter is left and the connection is idle again. */
  method LifoScenario(c: Conn) returns (started: seq<bool>, resolved: seq<WaiterId>, left: seq<WaiterId>, idle: seq<Conn>)
    ensures started == [true, false, false]
    ensures resolved == [2, 1, 0]
    ensures left == [] && idle == [c]
  {
    var p, ctx1, ctx2, ctx3, first;
    p, ctx1, ctx2, ctx3, started, first := ThirdServedFirst(c);
    var second := HandOver(p, ctx3, ctx2, c);
    assert p.waiters == [0];
    var third := HandOver(p, ctx2, ctx1, c);
    resolved := [first, second, third];
    var w := ctx1.Exit();
    left := p.waiters;
    idle := p.pool;
  }

  /** The first half of the cancellation unit scenario: the second context's task is
      cancelled while the third holds the connection, and the third exits. The cancelled
      waiter is skipped, so the first context's waiter is the one resolved. */
  method CancelSecondThenRelease(c: Conn)
    returns (p: ConnectionPool, ctx1: ConnectionContext, ctx2: ConnectionContext, resolved: seq<WaiterId>)
    ensures fresh(p) && ctx1 != ctx2
    ensures p.Valid() && p.pool == [c] && p.waiters == [0, 1]
    ensures 0 in p.status && p.status[0] == Resolved && 1 in p.status && p.status[1] == WaiterState.Cancelled
    ensures ctx1.pool == p && ctx2.pool == p && ctx1.waiter == Some(0) && ctx2.waiter == Some(1)
    ensures !ctx1.taskCancelled
    ensures resolved == [2, 0]
  {
    var ctx3, started, first;
    p, ctx1, ctx2, ctx3, started, first := ThirdServedFirst(c);
    ctx2.Cancel();
    WakeupIsLifo(p.waiters, p.status, 0);
    var w := ctx3.Exit();
    resolved := [first, p.waiters[w.value]];
  }

  /** The cancellation unit scenario: the second context's task is cancelled while the third
      holds the connection. Its waiter is skipped by the wake-up, so the connection goes to
      the first context; the cancelled context still removes its waiter and gets nothing. */
  method CancellationScenario(c: Conn) returns (resolved: seq<WaiterId>, cancelled: Result<Conn, Error>,
                                                  left: seq<WaiterId>)
    ensures resolved == [2, 0]
    ensures cancelled == Err(Error.Cancelled)
    ensures left == []
  {
    var p, ctx1, ctx2;
    p, ctx1, ctx2, resolved := CancelSecondThenRelease(c);
    RemoveLast(p.waiters);
    cancelled := ctx2.Enter();
    assert p.waiters == [0];
    RemoveLast(p.waiters);
    var r1 := ctx1.Enter();
    assert p.waiters == [];
    var w := ctx1.Exit();
    left := p.waiters;
  }
}

=== FILE: emcache_client.dfy ===
/** The emcache `_Client`: argument checks made before any node is contacted, and the
    mapping from the server's reply to a return value or a typed error. The reply a
    connection would return is a parameter; routing, I/O and timeouts are not modelled. */
module EmcacheClient {
  import opened Wrappers
  import opened Bytes
  import opened Keys
  import opened Frames

  // The one-line replies of the memcached text protocol.
  function Stored(): bytes { Ascii("STORED") }
  function NotStored(): bytes { Ascii("NOT_STORED") }
  function Exists(): bytes { Ascii("EXISTS") }
  function NotFound(): bytes { Ascii("NOT_FOUND") }
  function Touched(): bytes { Ascii("TOUCHED") }
  function Deleted(): bytes { Ascii("DELETED") }
  function OkReply(): bytes { Ascii("OK") }
  function End(): bytes { Ascii("END") }
  function VersionWord(): bytes { Ascii("VERSION") }

  lemma RepliesDiffer()
    ensures Stored() != NotStored() && Stored() != Exists() && Stored() != NotFound()
    ensures Touched() != NotFound() && Deleted() != NotFound()
  {
    assert Stored()[0] != NotStored()[0] && Stored()[0] != Exists()[0] && Stored()[0] != NotFound()[0];
    assert Touched()[0] != NotFound()[0] && Deleted()[0] != NotFound()[0];
  }

  /** The record returned by fetch commands: flags and cas are present only when asked for. */
  datatype Item = Item(value: bytes, flags: Option<int>, cas: Option<int>)

  /** What one node answers to a fetch: parallel lists per returned key, and the text of a
      CLIENT_ERROR line (empty when there was none; an empty message counts as none). */
  datatype FetchReply = FetchReply(keys: seq<bytes>, values: seq<bytes>, flags: seq<int>, cas: seq<int>,
                                   clientError: bytes)

  predicate HasClientError(r: FetchReply) { |r.clientError| > 0 }

  // ---------------------------------------------------------------------------
  // Reply classification (pure)
  // ---------------------------------------------------------------------------

  /** `set`: any reply but STORED is a StorageCommandError; with noreply nothing is checked. */
  function ClassifySet(noreply: bool, reply: bytes): (o: Outcome<Error>)
    ensures o.Pass? <==> noreply || reply == Stored()
    ensures o.Fail? ==> o.error == StorageCommandError
  {
    if !noreply && reply != Stored() then Fail(StorageCommandError) else Pass
  }

  /** add, replace, append and prepend: NOT_STORED is NotStoredStorageCommandError, any other
      reply but STORED is StorageCommandError; with noreply nothing is checked. */
  function ClassifyConditional(noreply: bool, reply: bytes): (o: Outcome<Error>)
    ensures o.Pass? <==> noreply || reply == Stored()
    ensures o == Fail(NotStoredStorageCommandError) <==> !noreply && reply == NotStored()
    ensures o == Fail(StorageCommandError) <==> !noreply && reply != Stored() && reply != NotStored()
  {
    RepliesDiffer();
    if !noreply && reply == NotStored() then Fail(NotStoredStorageCommandError)
    else if !noreply && reply != Stored() then Fail(StorageCommandError)
    else Pass
  }

  /** cas: EXISTS (the item changed since it was read) is NotStoredStorageCommandError, any
      other reply but STORED, NOT_FOUND included, is StorageCommandError. */
  function ClassifyCas(noreply: bool, reply: bytes): (o: Outcome<Error>)
    ensures o.Pass? <==> noreply || reply == Stored()
    ensures o == Fail(NotStoredStorageCommandError) <==> !noreply && reply == Exists()
    ensures o == Fail(StorageCommandError) <==> !noreply && reply != Stored() && reply != Exists()
  {
    RepliesDiffer();
    if !noreply && reply == Exists() then Fail(NotStoredStorageCommandError)
    else if !noreply && reply != Stored() then Fail(StorageCommandError)
    else Pass
  }

  /** incr/decr: noreply gives None, NOT_FOUND is NotFoundCommandError, otherwise the reply
      is read as a decimal integer (a reply that is not one raises ValueError). */
  function ClassifyCounter(noreply: bool, reply: bytes): (r: Result<Option<int>, Error>)
    ensures noreply ==> r == Ok(None)
    ensures !noreply && reply == NotFound() ==> r == Err(NotFoundCommandError)
    ensures !noreply ==> forall n: nat {:trigger NatToDecimal(n)} :: reply == NatToDecimal(n) ==> r == Ok(Some(n))
    ensures r.Ok? && !noreply ==> r.value.Some? && ParseInt(reply) == Some(r.value.value)
    ensures !noreply && reply != NotFound() ==> (r.Ok? <==> ParseInt(reply).Some?)
    ensures !noreply && reply != NotFound() && r.Err? ==> r.error == ValueError(NotAnInteger)
  {
    if noreply then Ok(None)
    else if reply == NotFound() then Err(NotFoundCommandError)
    else
      NotFoundIsNotNumeral();
      match ParseInt(reply)
      case Some(n) => Ok(Some(n))
      case None => Err(ValueError(NotAnInteger))
  }

  lemma NotFoundIsNotNumeral()
    ensures forall n: nat {:trigger NatToDecimal(n)} :: NatToDecimal(n) != NotFound()
    ensures forall n: nat {:trigger NatToDecimal(n)} :: ParseInt(NatToDecimal(n)) == Some(n)
  {
    forall n: nat ensures NatToDecimal(n) != NotFound() && ParseInt(NatToDecimal(n)) == Some(n) {
      assert IsDigit(NatToDecimal(n)[0]);
      assert NotFound()[0] == 78;
      IntDecimalRoundTrip(n);
    }
  }

  /** touch and delete: NOT_FOUND is NotFoundCommandError, any reply but the expected word
      (TOUCHED or DELETED) is CommandError. */
  function ClassifyKeyCommand(noreply: bool, reply: bytes, expected: bytes): (o: Outcome<Error>)
    requires expected != NotFound()
    ensures o.Pass? <==> noreply || reply == expected
    ensures o == Fail(NotFoundCommandError) <==> !noreply && reply == NotFound()
    ensures o == Fail(CommandError) <==> !noreply && reply != expected && reply != NotFound()
  {
    if noreply then Pass
    else if reply == NotFound() then Fail(NotFoundCommandError)
    else if reply != expected then Fail(CommandError)
    else Pass
  }

  /** flush_all, cache_memlimit and verbosity: any reply but OK is CommandError. */
  function ClassifyOk(noreply: bool, reply: bytes): (o: Outcome<Error>)
    ensures o.Pass? <==> noreply || reply == OkReply()
    ensures o.Fail? ==> o.error == CommandError
  {
    if noreply then Pass
    else if reply != OkReply() then Fail(CommandError)
    else Pass
  }

  predicate StartsWith(s: bytes, p: bytes) { |p| <= |s| && s[..|p|] == p }

  /** `s.removeprefix(p)`. */
  function RemovePrefix(s: bytes, p: bytes): (r: bytes)
    ensures StartsWith(s, p) ==> p + r == s
    ensures !StartsWith(s, p) ==> r == s
  {
    if StartsWith(s, p) then
      assert s == s[..|p|] + s[|p|..];
      s[|p|..]
    else s
  }

  /** version: an empty reply or one not starting with VERSION is CommandError; otherwise
      the reply with a leading `VERSION ` removed (a bare `VERSION` is kept whole), decoded
      as UTF-8, which raises UnicodeDecodeError when the bytes are not well formed. The
      decoded text is represented by its UTF-8 bytes. */
  function ClassifyVersion(reply: bytes): (r: Result<bytes, Error>)
    ensures r.Ok? <==> StartsWith(reply, VersionWord()) && IsUtf8(RemovePrefix(reply, VersionWord() + [SP]))
    ensures !StartsWith(reply, VersionWord()) ==> r == Err(CommandError)
    ensures StartsWith(reply, VersionWord()) && r.Err? ==> r.error == UnicodeDecodeError
    ensures r.Ok? && StartsWith(reply, VersionWord() + [SP]) ==> VersionWord() + [SP] + r.value == reply
    ensures r.Ok? && !StartsWith(reply, VersionWord() + [SP]) ==> r.value == reply
  {
    if |reply| == 0 || !StartsWith(reply, VersionWord()) then Err(CommandError)
    else
      var version := RemovePrefix(reply, VersionWord() + [SP]);
      if IsUtf8(version) then Ok(version) else Err(UnicodeDecodeError)
  }

  /** A server's ASCII version string comes back as sent; a byte that is not UTF-8 raises. */
  lemma VersionDecoding(v: bytes)
    requires forall i :: 0 <= i < |v| ==> v[i] < 0x80
    ensures ClassifyVersion(VersionWord() + [SP] + v) == Ok(v)
    ensures ClassifyVersion(VersionWord() + [SP] + v + [0xFF]) == Err(UnicodeDecodeError)
  {
    var p := VersionWord() + [SP];
    assert (p + v)[..|p|] == p;
    assert (p + v + [0xFF])[..|p|] == p;
    assert (p + v)[..|VersionWord()|] == VersionWord();
    assert (p + v + [0xFF])[..|VersionWord()|] == VersionWord();
    AsciiIsUtf8(v);
    assert RemovePrefix(p + v + [0xFF], p) == v + [0xFF];
    Utf8Append(v, [0xFF]);
  }

  /** stats: the reply must end with END; extracting the STAT pairs is not modelled. */
  function ClassifyStats(reply: bytes): (o: Outcome<Error>)
    ensures o.Pass? <==> |reply| >= 3 && reply[|reply| - 3..] == End()
    ensures o.Fail? ==> o.error == CommandError
  {
    if |reply| == 0 || !(|reply| >= 3 && reply[|reply| - 3..] == End()) then Fail(CommandError) else Pass
  }

  // ---------------------------------------------------------------------------
  // Result shaping of fetch commands (pure)
  // ---------------------------------------------------------------------------

  /** The Item built from position `idx` of a reply: flags only with return_flags, cas only
      for the cas-returning commands; a short parallel list raises IndexError. */
  function ItemAt(r: FetchReply, idx: nat, returnFlags: bool, withCas: bool): (res: Result<Item, Error>)
    ensures res.Err? <==> idx >= |r.values| || (returnFlags && idx >= |r.flags|) || (withCas && idx >= |r.cas|)
    ensures res.Err? ==> res.error == IndexError
    ensures res.Ok? ==> res.value.value == r.values[idx]
    ensures res.Ok? ==> (res.value.flags.Some? <==> returnFlags) && (returnFlags ==> res.value.flags.value == r.flags[idx])
    ensures res.Ok? ==> (res.value.cas.Some? <==> withCas) && (withCas ==> res.value.cas.value == r.cas[idx])
  {
    if idx >= |r.values| || (returnFlags && idx >= |r.flags|) || (withCas && idx >= |r.cas|) then Err(IndexError)
    else Ok(Item(r.values[idx],
                 if returnFlags then Some(r.flags[idx]) else None,
                 if withCas then Some(r.cas[idx]) else None))
  }

  /** get, gets, gat and gats after their reply: a CLIENT_ERROR is CommandError, a key absent
      from the reply is None, otherwise the Item at position 0. */
  function ShapeSingle(key: bytes, r: FetchReply, returnFlags: bool, withCas: bool): (res: Result<Option<Item>, Error>)
    ensures HasClientError(r) ==> res == Err(CommandError)
    ensures !HasClientError(r) && key !in r.keys ==> res == Ok(None)
    ensures !HasClientError(r) && key in r.keys && |r.values| > 0 && (returnFlags ==> |r.flags| > 0) &&
            (withCas ==> |r.cas| > 0) ==>
              res.Ok? && res.value.Some? && res.value.value.value == r.values[0]
    ensures !HasClientError(r) && key in r.keys && ItemAt(r, 0, returnFlags, withCas).Err? ==> res == Err(IndexError)
    ensures res.Ok? && res.value.Some? ==> key in r.keys && ItemAt(r, 0, returnFlags, withCas) == Ok(res.value.value)
  {
    if HasClientError(r) then Err(CommandError)
    else if key !in r.keys then Ok(None)
    else
      match ItemAt(r, 0, returnFlags, withCas)
      case Ok(item) => Ok(Some(item))
      case Err(e) => Err(e)
  }

  /** Items of the first `n` positions of one node's reply written over `acc`, in order. */
  function AddEntries(acc: map<bytes, Item>, r: FetchReply, n: nat, returnFlags: bool, withCas: bool)
    : Result<map<bytes, Item>, Error>
    requires n <= |r.keys|
  {
    if n == 0 then Ok(acc)
    else
      match AddEntries(acc, r, n - 1, returnFlags, withCas)
      case Err(e) => Err(e)
      case Ok(m) =>
        match ItemAt(r, n - 1, returnFlags, withCas)
        case Err(e) => Err(e)
        case Ok(item) => Ok(m[r.keys[n - 1] := item])
  }

  /** One node's reply merged into `acc`: its CLIENT_ERROR raises before any entry is added. */
  function MergeOne(acc: map<bytes, Item>, r: FetchReply, returnFlags: bool, withCas: bool)
    : Result<map<bytes, Item>, Error>
  {
    if HasClientError(r) then Err(CommandError) else AddEntries(acc, r, |r.keys|, returnFlags, withCas)
  }

  /** All node replies merged in order into one map; a later entry for a key overwrites. */
  function Merge(replies: seq<FetchReply>, returnFlags: bool, withCas: bool): Result<map<bytes, Item>, Error>
    decreases |replies|
  {
    if replies == [] then Ok(map[])
    else
      match Merge(replies[..|replies| - 1], returnFlags, withCas)
      case Err(e) => Err(e)
      case Ok(m) => MergeOne(m, replies[|replies| - 1], returnFlags, withCas)
  }

  /** Every key any node returned. */
  function ReturnedKeys(replies: seq<FetchReply>): set<bytes>
    decreases |replies|
  {
    if replies == [] then {}
    else
      var last := replies[|replies| - 1];
      ReturnedKeys(replies[..|replies| - 1]) + (set k | k in last.keys)
  }

  /** The reply carries as many values (and flags and cas, when they are read) as keys. */
  predicate WellFormed(r: FetchReply, returnFlags: bool, withCas: bool)
  {
    |r.values| >= |r.keys| && (returnFlags ==> |r.flags| >= |r.keys|) && (withCas ==> |r.cas| >= |r.keys|)
  }

  predicate ItemShaped(item: Item, returnFlags: bool, withCas: bool)
  {
    (item.flags.Some? <==> returnFlags) && (item.cas.Some? <==> withCas)
  }

  lemma {:induction false} AddEntriesFacts(acc: map<bytes, Item>, r: FetchReply, n: nat, returnFlags: bool, withCas: bool)
    requires n <= |r.keys|
    ensures AddEntries(acc, r, n, returnFlags, withCas).Err? ==>
              AddEntries(acc, r, n, returnFlags, withCas).error == IndexError
    ensures WellFormed(r, returnFlags, withCas) ==> AddEntries(acc, r, n, returnFlags, withCas).Ok?
    ensures AddEntries(acc, r, n, returnFlags, withCas).Ok? ==>
              AddEntries(acc, r, n, returnFlags, withCas).value.Keys == acc.Keys + (set k | k in r.keys[..n])
    ensures AddEntries(acc, r, n, returnFlags, withCas).Ok? && (forall k :: k in acc ==> ItemShaped(acc[k], returnFlags, withCas)) ==>
              forall k :: k in AddEntries(acc, r, n, returnFlags, withCas).value ==>
                ItemShaped(AddEntries(acc, r, n, returnFlags, withCas).value[k], returnFlags, withCas)
  {
    if n > 0 {
      AddEntriesFacts(acc, r, n - 1, returnFlags, withCas);
      assert r.keys[..n] == r.keys[..n - 1] + [r.keys[n - 1]];
    }
  }

  lemma {:induction false} MergeFacts(replies: seq<FetchReply>, returnFlags: bool, withCas: bool)
    decreases |replies|
    ensures Merge(replies, returnFlags, withCas).Err? ==>
              Merge(replies, returnFlags, withCas).error in {CommandError, IndexError}
    ensures Merge(replies, returnFlags, withCas).Ok? ==>
              Merge(replies, returnFlags, withCas).value.Keys == ReturnedKeys(replies)
    ensures Merge(replies, returnFlags, withCas).Ok? ==>
              forall k :: k in Merge(replies, returnFlags, withCas).value ==>
                ItemShaped(Merge(replies, returnFlags, withCas).value[k], returnFlags, withCas)
  {
    if replies != [] {
      var init := replies[..|replies| - 1];
      var last := replies[|replies| - 1];
      MergeFacts(init, returnFlags, withCas);
      if Merge(init, returnFlags, withCas).Ok? && !HasClientError(last) {
        AddEntriesFacts(Merge(init, returnFlags, withCas).value, last, |last.keys|, returnFlags, withCas);
        assert last.keys[..|last.keys|] == last.keys;
      }
    }
  }

  /** The last position of `k` in `keys`, or None when it does not occur. */
  function LastIndex(keys: seq<bytes>, k: bytes): (j: Option<nat>)
    decreases |keys|
    ensures j.None? <==> k !in keys
    ensures j.Some? ==> j.value < |keys| && keys[j.value] == k
    ensures j.Some? ==> forall j' :: j.value < j' < |keys| ==> keys[j'] != k
  {
    if keys == [] then None
    else if keys[|keys| - 1] == k then Some(|keys| - 1)
    else LastIndex(keys[..|keys| - 1], k)
  }

  /** The last reply, in merge order, that returned `k`, or None when none did. */
  function LastReply(replies: seq<FetchReply>, k: bytes): (i: Option<nat>)
    decreases |replies|
    ensures i.None? <==> forall i' :: 0 <= i' < |replies| ==> k !in replies[i'].keys
    ensures i.Some? ==> i.value < |replies| && k in replies[i.value].keys
    ensures i.Some? ==> forall i' :: i.value < i' < |replies| ==> k !in replies[i'].keys
  {
    if replies == [] then None
    else if k in replies[|replies| - 1].keys then Some(|replies| - 1)
    else
      var i := LastReply(replies[..|replies| - 1], k);
      assert i.None? ==> forall i' :: 0 <= i' < |replies| ==> k !in replies[i'].keys by {
        if i.None? {
          forall i' | 0 <= i' < |replies| ensures k !in replies[i'].keys {
            if i' < |replies| - 1 { assert replies[i'] == replies[..|replies| - 1][i']; }
          }
        }
      }
      i
  }

  /** After writing the first `n` positions over `acc`, a key among them holds the Item of
      its last position, and any other key keeps its value in `acc`. */
  lemma {:induction false} AddEntriesValues(acc: map<bytes, Item>, r: FetchReply, n: nat, returnFlags: bool, withCas: bool)
    requires n <= |r.keys|
    ensures AddEntries(acc, r, n, returnFlags, withCas).Ok? ==>
              forall k :: k in AddEntries(acc, r, n, returnFlags, withCas).value ==>
                if k in r.keys[..n] then
                  ItemAt(r, LastIndex(r.keys[..n], k).value, returnFlags, withCas)
                    == Ok(AddEntries(acc, r, n, returnFlags, withCas).value[k])
                else
                  k in acc && AddEntries(acc, r, n, returnFlags, withCas).value[k] == acc[k]
  {
    if n > 0 && AddEntries(acc, r, n, returnFlags, withCas).Ok? {
      AddEntriesValues(acc, r, n - 1, returnFlags, withCas);
      var m := AddEntries(acc, r, n - 1, returnFlags, withCas).value;
      var item := ItemAt(r, n - 1, returnFlags, withCas).value;
      var res := AddEntries(acc, r, n, returnFlags, withCas).value;
      assert res == m[r.keys[n - 1] := item];
      var keys := r.keys[..n];
      assert keys == r.keys[..n - 1] + [r.keys[n - 1]];
      forall k | k in res
        ensures if k in keys then ItemAt(r, LastIndex(keys, k).value, returnFlags, withCas) == Ok(res[k])
                else k in acc && res[k] == acc[k]
      {
        if k == r.keys[n - 1] {
          assert LastIndex(keys, k) == Some(n - 1);
        } else {
          assert LastIndex(keys, k) == LastIndex(r.keys[..n - 1], k);
          assert k in keys <==> k in r.keys[..n - 1];
          assert res[k] == m[k];
        }
      }
    }
  }

  /** get_many and friends: every merged key maps to the Item built from its last
      occurrence, in the last node reply that returned it; a later entry overwrites. */
  lemma {:induction false} MergeValues(replies: seq<FetchReply>, returnFlags: bool, withCas: bool)
    decreases |replies|
    ensures Merge(replies, returnFlags, withCas).Ok? ==>
              forall k :: k in Merge(replies, returnFlags, withCas).value ==>
                LastReply(replies, k).Some? &&
                var i := LastReply(replies, k).value;
                ItemAt(replies[i], LastIndex(replies[i].keys, k).value, returnFlags, withCas)
                  == Ok(Merge(replies, returnFlags, withCas).value[k])
  {
    if replies != [] && Merge(replies, returnFlags, withCas).Ok? {
      var init := replies[..|replies| - 1];
      var last := replies[|replies| - 1];
      MergeValues(init, returnFlags, withCas);
      MergeFacts(init, returnFlags, withCas);
      var m := Merge(init, returnFlags, withCas).value;
      AddEntriesValues(m, last, |last.keys|, returnFlags, withCas);
      assert last.keys[..|last.keys|] == last.keys;
      forall k | k in Merge(replies, returnFlags, withCas).value && k !in last.keys
        ensures LastReply(replies, k) == LastReply(init, k)
        ensures LastReply(init, k).Some? ==> replies[LastReply(init, k).value] == init[LastReply(init, k).value]
      {
      }
    }
  }

  /** With well-formed replies, merging fails exactly when some node reported a CLIENT_ERROR,
      and then with CommandError. */
  lemma {:induction false} MergeFailsOnClientError(replies: seq<FetchReply>, returnFlags: bool, withCas: bool)
    requires forall i :: 0 <= i < |replies| ==> WellFormed(replies[i], returnFlags, withCas)
    decreases |replies|
    ensures Merge(replies, returnFlags, withCas).Ok? <==> forall i :: 0 <= i < |replies| ==> !HasClientError(replies[i])
    ensures Merge(replies, returnFlags, withCas).Err? ==> Merge(replies, returnFlags, withCas).error == CommandError
  {
    if replies != [] {
      var init := replies[..|replies| - 1];
      var last := replies[|replies| - 1];
      MergeFailsOnClientError(init, returnFlags, withCas);
      if Merge(init, returnFlags, withCas).Ok? {
        AddEntriesFacts(Merge(init, returnFlags, withCas).value, last, |last.keys|, returnFlags, withCas);
      } else {
        var i :| 0 <= i < |init| && HasClientError(init[i]);
        assert replies[i] == init[i];
      }
    }
  }

  lemma {:induction false} MergeErrorPersists(replies: seq<FetchReply>, i: nat, returnFlags: bool, withCas: bool)
    requires i <= |replies| && Merge(replies[..i], returnFlags, withCas).Err?
    decreases |replies| - i
    ensures Merge(replies, returnFlags, withCas) == Merge(replies[..i], returnFlags, withCas)
  {
    if i < |replies| {
      assert replies[..i + 1][..i] == replies[..i];
      MergeErrorPersists(replies, i + 1, returnFlags, withCas);
    } else {
      assert replies[..i] == replies;
    }
  }

  // ---------------------------------------------------------------------------
  // The client object
  // ---------------------------------------------------------------------------

  class Client {
    var closed: bool
    /** How many times the cluster was asked to close its connections. */
    var clusterCloses: nat

    constructor()
      ensures !closed && clusterCloses == 0
    {
      closed := false;
      clusterCloses := 0;
    }

    /** `close` is idempotent: the first call marks the client closed and closes the cluster,
        later calls do nothing. */
    method Close()
      modifies this
      ensures closed
      ensures clusterCloses == old(clusterCloses) + (if old(closed) then 0 else 1)
    {
      if closed {
        return;
      }
      closed := true;
      clusterCloses := clusterCloses + 1;
    }

    /** `_storage_command` up to the network call: closed, then cas, flags and key. The value
        returned is the connection's reply, passed in as `reply`. */
    function StorageCommand(key: bytes, flags: int, cas: Option<int>, reply: bytes): (r: Result<bytes, Error>)
      reads this
      ensures closed ==> r == Err(RuntimeError)
      ensures r.Ok? ==> r.value == reply
      ensures !closed ==> forall cmd, value, exptime, noreply ::
                (r.Ok? <==> BuildStorageCommand(cmd, key, value, flags, exptime, noreply, cas).Ok?) &&
                (r.Err? ==> r.error == BuildStorageCommand(cmd, key, value, flags, exptime, noreply, cas).error)
    {
      if closed then Err(RuntimeError)
      else if cas.Some? && cas.value > MaxCasValue then Err(ValueError(CasTooLarge))
      else if flags > MaxFlagValue then Err(ValueError(FlagsTooLarge))
      else if !IsKeyValid(key) then Err(ValueError(InvalidKey))
      else Ok(reply)
    }

    function Set(key: bytes, value: bytes, flags: int, exptime: int, noreply: bool, reply: bytes): (o: Outcome<Error>)
      reads this
      ensures StorageCommand(key, flags, None, reply).Err? ==> o == Fail(StorageCommand(key, flags, None, reply).error)
      ensures StorageCommand(key, flags, None, reply).Ok? ==> o == ClassifySet(noreply, reply)
    {
      match StorageCommand(key, flags, None, reply)
      case Err(e) => Fail(e)
      case Ok(res) => ClassifySet(noreply, res)
    }

    /** add and replace: validation errors first, then NOT_STORED (the key did, or did not,
        exist) or any other non-STORED reply raise unless noreply. */
    function Conditional(key: bytes, value: bytes, flags: int, exptime: int, noreply: bool, reply: bytes)
      : (o: Outcome<Error>)
      reads this
      ensures StorageCommand(key, flags, None, reply).Err? ==> o == Fail(StorageCommand(key, flags, None, reply).error)
      ensures StorageCommand(key, flags, None, reply).Ok? ==> o == ClassifyConditional(noreply, reply)
    {
      match StorageCommand(key, flags, None, reply)
      case Err(e) => Fail(e)
      case Ok(res) => ClassifyConditional(noreply, res)
    }

    /** append and prepend send flags 0 and exptime 0, so the flags and cas bounds can never
        refuse them. */
    function Concatenate(key: bytes, value: bytes, noreply: bool, reply: bytes): (o: Outcome<Error>)
      reads this
      ensures StorageCommand(key, 0, None, reply).Err? ==> o == Fail(StorageCommand(key, 0, None, reply).error)
      ensures StorageCommand(key, 0, None, reply).Ok? ==> o == ClassifyConditional(noreply, reply)
      ensures o.Fail? ==> o.error != ValueError(FlagsTooLarge) && o.error != ValueError(CasTooLarge)
    {
      match StorageCommand(key, 0, None, reply)
      case Err(e) => Fail(e)
      case Ok(res) => ClassifyConditional(noreply, res)
    }

    function CompareAndSwap(key: bytes, value: bytes, cas: int, flags: int, exptime: int, noreply: bool, reply: bytes)
      : (o: Outcome<Error>)
      reads this
      ensures StorageCommand(key, flags, Some(cas), reply).Err? ==>
                o == Fail(StorageCommand(key, flags, Some(cas), reply).error)
      ensures StorageCommand(key, flags, Some(cas), reply).Ok? ==> o == ClassifyCas(noreply, reply)
    {
      match StorageCommand(key, flags, Some(cas), reply)
      case Err(e) => Fail(e)
      case Ok(res) => ClassifyCas(noreply, res)
    }

    /** `_incr_decr_command` then the counter classification: closed, then a negative delta,
        then the key, are refused before the reply is looked at. */
    function IncrDecr(key: bytes, delta: int, noreply: bool, reply: bytes): (r: Result<Option<int>, Error>)
      reads this
      ensures closed ==> r == Err(RuntimeError)
      ensures !closed && delta < 0 ==> r == Err(ValueError(NegativeDelta))
      ensures !closed ==> forall cmd ::
                (BuildIncrDecrCommand(cmd, key, delta, noreply).Err? ==>
                   r == Err(BuildIncrDecrCommand(cmd, key, delta, noreply).error)) &&
                (BuildIncrDecrCommand(cmd, key, delta, noreply).Ok? ==> r == ClassifyCounter(noreply, reply))
    {
      if closed then Err(RuntimeError)
      else if delta < 0 then Err(ValueError(NegativeDelta))
      else if !IsKeyValid(key) then Err(ValueError(InvalidKey))
      else ClassifyCounter(noreply, reply)
    }

    /** `touch` (the client, unlike the pipeline, validates the key). */
    function Touch(key: bytes, exptime: int, noreply: bool, reply: bytes): (o: Outcome<Error>)
      reads this
      ensures closed ==> o == Fail(RuntimeError)
      ensures !closed && !IsKeyValid(key) ==> o == Fail(ValueError(InvalidKey))
      ensures !closed && IsKeyValid(key) ==> o == ClassifyKeyCommand(noreply, reply, Touched())
    {
      RepliesDiffer();
      if closed then Fail(RuntimeError)
      else if !IsKeyValid(key) then Fail(ValueError(InvalidKey))
      else ClassifyKeyCommand(noreply, reply, Touched())
    }

    /** `delete` (the client, unlike the pipeline, validates the key). */
    function Delete(key: bytes, noreply: bool, reply: bytes): (o: Outcome<Error>)
      reads this
      ensures closed ==> o == Fail(RuntimeError)
      ensures !closed && !IsKeyValid(key) ==> o == Fail(ValueError(InvalidKey))
      ensures !closed && IsKeyValid(key) ==> o == ClassifyKeyCommand(noreply, reply, Deleted())
    {
      RepliesDiffer();
      if closed then Fail(RuntimeError)
      else if !IsKeyValid(key) then Fail(ValueError(InvalidKey))
      else ClassifyKeyCommand(noreply, reply, Deleted())
    }

    /** flush_all, cache_memlimit and verbosity: only the closed flag is checked first. */
    function OkCommand(noreply: bool, reply: bytes): (o: Outcome<Error>)
      reads this
      ensures closed ==> o == Fail(RuntimeError)
      ensures !closed ==> o == ClassifyOk(noreply, reply)
    {
      if closed then Fail(RuntimeError) else ClassifyOk(noreply, reply)
    }

    function Version(reply: bytes): (r: Result<bytes, Error>)
      reads this
      ensures closed ==> r == Err(RuntimeError)
      ensures !closed ==> r == ClassifyVersion(reply)
    {
      if closed then Err(RuntimeError) else ClassifyVersion(reply)
    }

    function Stats(reply: bytes): (o: Outcome<Error>)
      reads this
      ensures closed ==> o == Fail(RuntimeError)
      ensures !closed ==> o == ClassifyStats(reply)
    {
      if closed then Fail(RuntimeError) else ClassifyStats(reply)
    }

    /** get (withCas false) and gets (withCas true); gat and gats shape their reply the same way. */
    function Fetch(key: bytes, returnFlags: bool, withCas: bool, reply: FetchReply): (r: Result<Option<Item>, Error>)
      reads this
      ensures closed ==> r == Err(RuntimeError)
      ensures !closed && !IsKeyValid(key) ==> r == Err(ValueError(InvalidKey))
      ensures !closed && IsKeyValid(key) ==> r == ShapeSingle(key, reply, returnFlags, withCas)
      ensures r.Ok? && r.value.Some? ==> ItemShaped(r.value.value, returnFlags, withCas)
    {
      if closed then Err(RuntimeError)
      else if !IsKeyValid(key) then Err(ValueError(InvalidKey))
      else ShapeSingle(key, reply, returnFlags, withCas)
    }

    /** get_many and gets_many: closed raises, no keys gives an empty map without contacting
        any node, one invalid key raises, and otherwise the node replies are merged in a
        nested loop. */
    method FetchMany(keys: seq<bytes>, returnFlags: bool, withCas: bool, replies: seq<FetchReply>)
      returns (r: Result<map<bytes, Item>, Error>)
      ensures closed ==> r == Err(RuntimeError)
      ensures !closed && keys == [] ==> r == Ok(map[])
      ensures !closed && keys != [] && !AllKeysValid(keys) ==> r == Err(ValueError(InvalidKey))
      ensures !closed && keys != [] && AllKeysValid(keys) ==> r == Merge(replies, returnFlags, withCas)
    {
      if closed {
        return Err(RuntimeError);
      }
      if keys == [] {
        return Ok(map[]);
      }
      var i := 0;
      while i < |keys|
        invariant 0 <= i <= |keys|
        invariant forall k :: 0 <= k < i ==> IsKeyValid(keys[k])
      {
        if !IsKeyValid(keys[i]) {
          return Err(ValueError(InvalidKey));
        }
        i := i + 1;
      }
      r := MergeReplies(replies, returnFlags, withCas);
    }
  }

  /** The nested loop of get_many/gets_many over the node replies. */
  method MergeReplies(replies: seq<FetchReply>, returnFlags: bool, withCas: bool)
    returns (r: Result<map<bytes, Item>, Error>)
    ensures r == Merge(replies, returnFlags, withCas)
  {
    var results: map<bytes, Item> := map[];
    var i := 0;
    while i < |replies|
      invariant 0 <= i <= |replies|
      invariant Merge(replies[..i], returnFlags, withCas) == Ok(results)
    {
      var reply := replies[i];
      assert replies[..i + 1][..i] == replies[..i];
      if HasClientError(reply) {
        MergeErrorPersists(replies, i + 1, returnFlags, withCas);
        return Err(CommandError);
      }
      ghost var before := results;
      var j := 0;
      while j < |reply.keys|
        invariant 0 <= j <= |reply.keys|
        invariant AddEntries(before, reply, j, returnFlags, withCas) == Ok(results)
      {
        var item := ItemAt(reply, j, returnFlags, withCas);
        if item.Err? {
          assert AddEntries(before, reply, j + 1, returnFlags, withCas) == Err(IndexError);
          AddEntriesErrorPersists(before, reply, j + 1, |reply.keys|, returnFlags, withCas);
          MergeErrorPersists(replies, i + 1, returnFlags, withCas);
          return Err(IndexError);
        }
        results := results[reply.keys[j] := item.value];
        j := j + 1;
      }
      i := i + 1;
    }
    assert replies[..i] == replies;
    r := Ok(results);
  }

  lemma {:induction false} AddEntriesErrorPersists(acc: map<bytes, Item>, r: FetchReply, n: nat, m: nat,
                                                   returnFlags: bool, withCas: bool)
    requires n <= m <= |r.keys| && AddEntries(acc, r, n, returnFlags, withCas).Err?
    decreases m - n
    ensures AddEntries(acc, r, m, returnFlags, withCas) == AddEntries(acc, r, n, returnFlags, withCas)
  {
    if n < m {
      AddEntriesErrorPersists(acc, r, n, m - 1, returnFlags, withCas);
    }
  }
}

=== FILE: fastcache_client.dfy ===
/** The fastcache `Client`: the flags bound and the key are checked before a node is picked,
    storage replies are classified like emcache's, and `get` shapes its reply into a value
    or a (value, flags) pair. The connection's reply is a parameter. */
module FastcacheClient {
  import opened Wrappers
  import opened Bytes
  import opened Keys
  import opened Frames
  import EmcacheClient

  /** `_storage_command` up to the network call: flags above 2**16 first, then the key.
      There is no cas and no closed state. */
  function StorageCommand(key: bytes, flags: int, reply: bytes): (r: Result<bytes, Error>)
    ensures r.Ok? <==> flags <= MaxFlagValue && IsKeyValid(key)
    ensures flags > MaxFlagValue ==> r == Err(ValueError(FlagsTooLarge))
    ensures flags <= MaxFlagValue && !IsKeyValid(key) ==> r == Err(ValueError(InvalidKey))
    ensures r.Ok? ==> r.value == reply
  {
    if flags > MaxFlagValue then Err(ValueError(FlagsTooLarge))
    else if !IsKeyValid(key) then Err(ValueError(InvalidKey))
    else Ok(reply)
  }

  /** The checks agree with emcache's pipeline builder for a command without cas: the same
      calls are refused, with the same errors. */
  lemma StorageChecksAgree(cmd: StorageCmd, key: bytes, value: bytes, flags: int, exptime: int, noreply: bool,
                           reply: bytes)
    ensures StorageCommand(key, flags, reply).Ok? <==> BuildStorageCommand(cmd, key, value, flags, exptime, noreply, None).Ok?
    ensures StorageCommand(key, flags, reply).Err? ==>
              StorageCommand(key, flags, reply).error == BuildStorageCommand(cmd, key, value, flags, exptime, noreply, None).error
  {
  }

  function Set(key: bytes, value: bytes, flags: int, exptime: int, noreply: bool, reply: bytes): (o: Outcome<Error>)
    ensures StorageCommand(key, flags, reply).Err? ==> o == Fail(StorageCommand(key, flags, reply).error)
    ensures StorageCommand(key, flags, reply).Ok? ==> o == EmcacheClient.ClassifySet(noreply, reply)
  {
    match StorageCommand(key, flags, reply)
    case Err(e) => Fail(e)
    case Ok(res) => EmcacheClient.ClassifySet(noreply, res)
  }

  /** add, replace, append and prepend share one classification (fastcache's append and
      prepend, unlike emcache's, send the caller's flags and exptime). */
  function Conditional(key: bytes, value: bytes, flags: int, exptime: int, noreply: bool, reply: bytes)
    : (o: Outcome<Error>)
    ensures StorageCommand(key, flags, reply).Err? ==> o == Fail(StorageCommand(key, flags, reply).error)
    ensures StorageCommand(key, flags, reply).Ok? ==> o == EmcacheClient.ClassifyConditional(noreply, reply)
  {
    match StorageCommand(key, flags, reply)
    case Err(e) => Fail(e)
    case Ok(res) => EmcacheClient.ClassifyConditional(noreply, res)
  }

  /** What `get_cmd` returns: the keys found and their values and flags. */
  datatype GetReply = GetReply(keys: seq<bytes>, values: seq<bytes>, flags: seq<int>)

  /** `get`'s result: a value (or None) alone, or paired with its flags under return_flags. */
  datatype GetResult = Plain(value: Option<bytes>) | WithFlags(value: Option<bytes>, flags: Option<int>)

  /** `get`: the key is checked first; a miss is None, or (None, None) with return_flags; a hit
      is `values[0]`, or `(values[0], flags[0])`. Empty parallel lists raise IndexError. */
  function Get(key: bytes, returnFlags: bool, reply: GetReply): (r: Result<GetResult, Error>)
    ensures !IsKeyValid(key) ==> r == Err(ValueError(InvalidKey))
    ensures r.Ok? ==> (r.value.WithFlags? <==> returnFlags)
    ensures r.Ok? ==> (r.value.value.None? <==> key !in reply.keys)
    ensures r.Ok? && key !in reply.keys && returnFlags ==> r.value == WithFlags(None, None)
    ensures r.Ok? && key in reply.keys ==> |reply.values| > 0 && r.value.value == Some(reply.values[0])
    ensures r.Ok? && key in reply.keys && returnFlags ==> |reply.flags| > 0 && r.value.flags == Some(reply.flags[0])
    ensures r.Err? && IsKeyValid(key) ==>
              r.error == IndexError && key in reply.keys && (|reply.values| == 0 || (returnFlags && |reply.flags| == 0))
  {
    if !IsKeyValid(key) then Err(ValueError(InvalidKey))
    else if key !in reply.keys then
      if !returnFlags then Ok(Plain(None)) else Ok(WithFlags(None, None))
    else if |reply.values| == 0 then Err(IndexError)
    else if !returnFlags then Ok(Plain(Some(reply.values[0])))
    else if |reply.flags| == 0 then Err(IndexError)
    else Ok(WithFlags(Some(reply.values[0]), Some(reply.flags[0])))
  }

  /** A reply that answers for the key with one value and one flags entry always yields that
      value (and flags); a reply without the key is always a miss. */
  lemma GetHitOrMiss(key: bytes, value: bytes, flags: int, returnFlags: bool)
    requires IsKeyValid(key)
    ensures Get(key, returnFlags, GetReply([key], [value], [flags]))
            == Ok(if returnFlags then WithFlags(Some(value), Some(flags)) else Plain(Some(value)))
    ensures Get(key, returnFlags, GetReply([], [], []))
            == Ok(if returnFlags then WithFlags(None, None) else Plain(None))
  {
  }
}

=== FILE: frames.dfy ===
/** Command framing of the memcached ASCII protocol, as built by the emcache pipeline:
    each builder validates its arguments and yields one exact command line (plus the
    data block for storage commands). Beside the builders stand reference decoders
    (what a server reads back) and the round-trip laws that connect the two. */
module Frames {
  import opened Wrappers
  import opened Bytes
  import opened Keys

  /** 2**16: flags above it are refused. */
  const MaxFlagValue: int := 0x1_0000
  /** 2**64: cas tokens above it are refused. */
  const MaxCasValue: int := 0x1_0000_0000_0000_0000

  datatype StorageCmd = Set | Add | Replace | Append | Prepend | Cas

  function StorageCmdName(c: StorageCmd): bytes
  {
    match c
    case Set => Ascii("set")
    case Add => Ascii("add")
    case Replace => Ascii("replace")
    case Append => Ascii("append")
    case Prepend => Ascii("prepend")
    case Cas => Ascii("cas")
  }

  function NoreplySuffix(noreply: bool): bytes
  {
    if noreply then [SP] + Ascii("noreply") else []
  }

  // ---------------------------------------------------------------------------
  // Storage commands: <cmd> <key> <flags> <exptime> <bytes>[ <cas>][ noreply]\r\n<data>\r\n
  // ---------------------------------------------------------------------------

  /** The `extra` part after the length field: an optional cas, then an optional noreply. */
  function StorageExtra(cas: Option<int>, noreply: bool): bytes
  {
    match cas
    case Some(c) => [SP] + IntToDecimal(c) + NoreplySuffix(noreply)
    case None => NoreplySuffix(noreply)
  }

  /** The header line, without its CRLF. */
  function StorageHeaderLine(cmd: StorageCmd, key: bytes, flags: int, exptime: int, length: nat,
                             cas: Option<int>, noreply: bool): bytes
  {
    StorageCmdName(cmd) + [SP] + key + [SP] + IntToDecimal(flags) + [SP] + IntToDecimal(exptime)
    + [SP] + NatToDecimal(length) + StorageExtra(cas, noreply)
  }

  /** The full storage frame: the header line declaring `|value|` bytes, then the data block. */
  function StorageFrame(cmd: StorageCmd, key: bytes, value: bytes, flags: int, exptime: int,
                        noreply: bool, cas: Option<int>): (r: bytes)
    ensures |r| == |StorageHeaderLine(cmd, key, flags, exptime, |value|, cas, noreply)| + |value| + 4
    ensures r[|r| - |value| - 2..] == value + CRLF
  {
    StorageHeaderLine(cmd, key, flags, exptime, |value|, cas, noreply) + CRLF + value + CRLF
  }

  /** `_Pipeline._storage_command`: cas bound, then flags bound, then the key, then the frame. */
  function BuildStorageCommand(cmd: StorageCmd, key: bytes, value: bytes, flags: int, exptime: int,
                               noreply: bool, cas: Option<int>): (r: Result<bytes, Error>)
    ensures r.Ok? <==> (cas.None? || cas.value <= MaxCasValue) && flags <= MaxFlagValue && IsKeyValid(key)
    ensures r == Err(ValueError(CasTooLarge)) <==> cas.Some? && cas.value > MaxCasValue
    ensures r == Err(ValueError(FlagsTooLarge)) <==>
              (cas.None? || cas.value <= MaxCasValue) && flags > MaxFlagValue
    ensures r == Err(ValueError(InvalidKey)) <==>
              (cas.None? || cas.value <= MaxCasValue) && flags <= MaxFlagValue && !IsKeyValid(key)
    ensures r.Ok? ==>
              (ParseStorageFrame(r.value) == Some((StorageHeader(cmd, key, flags, exptime, |value|, cas, noreply), value)))
  {
    if cas.Some? && cas.value > MaxCasValue then Err(ValueError(CasTooLarge))
    else if flags > MaxFlagValue then Err(ValueError(FlagsTooLarge))
    else if !IsKeyValid(key) then Err(ValueError(InvalidKey))
    else
      StorageFrameRoundTrip(cmd, key, value, flags, exptime, noreply, cas);
      Ok(StorageFrame(cmd, key, value, flags, exptime, noreply, cas))
  }

  /** The bounds are strict comparisons: flags = 2**16 and cas = 2**64 are accepted. */
  lemma StorageBoundsInclusive(cmd: StorageCmd, key: bytes, value: bytes, exptime: int, noreply: bool)
    requires IsKeyValid(key)
    ensures BuildStorageCommand(cmd, key, value, MaxFlagValue, exptime, noreply, Some(MaxCasValue)).Ok?
    ensures BuildStorageCommand(cmd, key, value, MaxFlagValue + 1, exptime, noreply, None)
            == Err(ValueError(FlagsTooLarge))
    ensures BuildStorageCommand(cmd, key, value, MaxFlagValue + 1, exptime, noreply, Some(MaxCasValue + 1))
            == Err(ValueError(CasTooLarge))
  {
  }

  /** The header line as space-separated tokens: cas (when given) precedes noreply. */
  function StorageTokens(cmd: StorageCmd, key: bytes, flags: int, exptime: int, length: nat,
                         cas: Option<int>, noreply: bool): seq<bytes>
  {
    [StorageCmdName(cmd), key, IntToDecimal(flags), IntToDecimal(exptime), NatToDecimal(length)]
    + CasToken(cas) + NoreplyToken(noreply)
  }

  function CasToken(cas: Option<int>): seq<bytes>
  {
    if cas.Some? then [IntToDecimal(cas.value)] else []
  }

  lemma JoinFive(a: bytes, b: bytes, c: bytes, d: bytes, e: bytes)
    ensures JoinSpace([a, b, c, d, e]) == a + [SP] + b + [SP] + c + [SP] + d + [SP] + e
  {
    JoinCons(d, [e]);
    assert [c, d, e] == [c] + [d, e];
    JoinCons(c, [d, e]);
    assert [b, c, d, e] == [b] + [c, d, e];
    JoinCons(b, [c, d, e]);
    assert [a, b, c, d, e] == [a] + [b, c, d, e];
    JoinCons(a, [b, c, d, e]);
  }

  lemma StorageExtraIsJoin(cas: Option<int>, noreply: bool)
    ensures CasToken(cas) + NoreplyToken(noreply) != [] ==>
              StorageExtra(cas, noreply) == [SP] + JoinSpace(CasToken(cas) + NoreplyToken(noreply))
    ensures CasToken(cas) + NoreplyToken(noreply) == [] ==> StorageExtra(cas, noreply) == []
  {
    if cas.Some? && noreply {
      assert CasToken(cas) + NoreplyToken(noreply) == [IntToDecimal(cas.value)] + [Ascii("noreply")];
      JoinCons(IntToDecimal(cas.value), [Ascii("noreply")]);
    } else if cas.Some? {
      assert CasToken(cas) + NoreplyToken(noreply) == [IntToDecimal(cas.value)];
    } else if noreply {
      assert CasToken(cas) + NoreplyToken(noreply) == [Ascii("noreply")];
    }
  }

  /** Joining five leading tokens and a tail: the tail adds one space and its own join. */
  lemma JoinFiveThen(a: bytes, b: bytes, c: bytes, d: bytes, e: bytes, tail: seq<bytes>, extra: bytes)
    requires tail != [] ==> extra == [SP] + JoinSpace(tail)
    requires tail == [] ==> extra == []
    ensures JoinSpace([a, b, c, d, e] + tail) == a + [SP] + b + [SP] + c + [SP] + d + [SP] + e + extra
  {
    JoinFive(a, b, c, d, e);
    if tail != [] {
      JoinAppend([a, b, c, d, e], tail);
    } else {
      assert [a, b, c, d, e] + tail == [a, b, c, d, e];
    }
  }

  lemma StorageHeaderIsJoin(cmd: StorageCmd, key: bytes, flags: int, exptime: int, length: nat,
                            cas: Option<int>, noreply: bool)
    ensures StorageHeaderLine(cmd, key, flags, exptime, length, cas, noreply)
            == JoinSpace(StorageTokens(cmd, key, flags, exptime, length, cas, noreply))
  {
    var a, c, d, e := StorageCmdName(cmd), IntToDecimal(flags), IntToDecimal(exptime), NatToDecimal(length);
    var tail, extra := CasToken(cas) + NoreplyToken(noreply), StorageExtra(cas, noreply);
    StorageExtraIsJoin(cas, noreply);
    JoinFiveThen(a, key, c, d, e, tail, extra);
    assert StorageTokens(cmd, key, flags, exptime, length, cas, noreply) == [a, key, c, d, e] + tail;
    assert StorageHeaderLine(cmd, key, flags, exptime, length, cas, noreply)
        == a + [SP] + key + [SP] + c + [SP] + d + [SP] + e + extra;
  }

  // ---------------------------------------------------------------------------
  // Reference decoder for storage frames (what the server reads)
  // ---------------------------------------------------------------------------

  datatype StorageHeader = StorageHeader(cmd: StorageCmd, key: bytes, flags: int, exptime: int,
                                         length: nat, cas: Option<int>, noreply: bool)

  function StorageCmdFromName(t: bytes): Option<StorageCmd>
  {
    if t == Ascii("set") then Some(Set)
    else if t == Ascii("add") then Some(Add)
    else if t == Ascii("replace") then Some(Replace)
    else if t == Ascii("append") then Some(Append)
    else if t == Ascii("prepend") then Some(Prepend)
    else if t == Ascii("cas") then Some(Cas)
    else None
  }

  lemma StorageCmdNameRoundTrip(c: StorageCmd)
    ensures StorageCmdFromName(StorageCmdName(c)) == Some(c)
  {
    assert Ascii("set")[0] != Ascii("add")[0] && Ascii("cas")[0] != Ascii("set")[0];
    assert Ascii("cas")[0] != Ascii("add")[0];
    assert Ascii("append")[1] != Ascii("prepend")[1];
    assert Ascii("replace")[0] != Ascii("prepend")[0];
  }

  /** A literal of lower-case letters holds neither a space nor a CR. */
  lemma WordIsSeparatorFree(s: string)
    requires forall i :: 0 <= i < |s| ==> 'a' <= s[i] <= 'z'
    ensures NoSpace(Ascii(s)) && CR !in Ascii(s)
  {
    var r := Ascii(s);
    forall i | 0 <= i < |r| ensures r[i] != SP && r[i] != CR {
      assert r[i] == s[i] as int;
    }
  }

  /** A command name is a single token: it holds neither a space nor a CR. */
  lemma StorageCmdNameClean(c: StorageCmd)
    ensures NoSpace(StorageCmdName(c)) && CR !in StorageCmdName(c)
  {
    match c
    case Set => WordIsSeparatorFree("set");
    case Add => WordIsSeparatorFree("add");
    case Replace => WordIsSeparatorFree("replace");
    case Append => WordIsSeparatorFree("append");
    case Prepend => WordIsSeparatorFree("prepend");
    case Cas => WordIsSeparatorFree("cas");
  }

  /** The optional tail of a header: nothing, a cas, "noreply", or a cas then "noreply". */
  function ParseStorageTail(tail: seq<bytes>): Option<(Option<int>, bool)>
  {
    if |tail| == 0 then Some((None, false))
    else if |tail| == 1 then
      if tail[0] == Ascii("noreply") then Some((None, true))
      else match ParseInt(tail[0])
           case Some(c) => Some((Some(c), false))
           case None => None
    else if |tail| == 2 && tail[1] == Ascii("noreply") then
      match ParseInt(tail[0])
      case Some(c) => Some((Some(c), true))
      case None => None
    else None
  }

  function ParseStorageHeader(line: bytes): Option<StorageHeader>
  {
    var ts := SplitSpace(line);
    if |ts| < 5 then None
    else
      var c := StorageCmdFromName(ts[0]);
      var f := ParseInt(ts[2]);
      var e := ParseInt(ts[3]);
      var n := ParseNat(ts[4]);
      var tail := ParseStorageTail(ts[5..]);
      if c.None? || f.None? || e.None? || n.None? || tail.None? then None
      else Some(StorageHeader(c.value, ts[1], f.value, e.value, n.value, tail.value.0, tail.value.1))
  }

  /** Reads a header line up to the first CR, then exactly the declared number of data bytes,
      then a final CRLF. */
  function ParseStorageFrame(frame: bytes): Option<(StorageHeader, bytes)>
  {
    if CR !in frame then None
    else
      var i := FirstIndex(frame, CR);
      var rest := frame[i..];
      match ParseStorageHeader(frame[..i])
      case None => None
      case Some(h) =>
        if |rest| == h.length + 4 && rest[..2] == CRLF && rest[h.length + 2..] == CRLF
        then Some((h, rest[2..h.length + 2]))
        else None
  }

  lemma NoreplyIsNotNumeral(i: int)
    ensures IntToDecimal(i) != Ascii("noreply")
    ensures ParseInt(Ascii("noreply")) == None
  {
    var n := Ascii("noreply");
    assert n[0] == 110;
    assert IsDigit(IntToDecimal(i)[0]) || IntToDecimal(i)[0] == MINUS;
  }

  lemma StorageTailRoundTrip(cas: Option<int>, noreply: bool)
    ensures ParseStorageTail(CasToken(cas) + NoreplyToken(noreply)) == Some((cas, noreply))
  {
    if cas.Some? {
      IntDecimalRoundTrip(cas.value);
      NoreplyIsNotNumeral(cas.value);
    } else {
      NoreplyIsNotNumeral(0);
    }
  }

  lemma StorageTokensClean(cmd: StorageCmd, key: bytes, flags: int, exptime: int, length: nat,
                           cas: Option<int>, noreply: bool)
    requires IsKeyValid(key)
    ensures AllClean(StorageTokens(cmd, key, flags, exptime, length, cas, noreply))
  {
    var head := [StorageCmdName(cmd), key, IntToDecimal(flags), IntToDecimal(exptime), NatToDecimal(length)];
    StorageCmdNameClean(cmd);
    ValidKeyHasNoSeparators(key);
    DecimalClean(flags);
    DecimalClean(exptime);
    DecimalClean(length);
    if cas.Some? { DecimalClean(cas.value); }
    NoreplyClean();
    assert AllClean(head);
    assert AllClean(CasToken(cas));
    assert AllClean(NoreplyToken(noreply));
    AllCleanAppend(head, CasToken(cas));
    AllCleanAppend(head + CasToken(cas), NoreplyToken(noreply));
  }

  lemma StorageHeaderTokens(cmd: StorageCmd, key: bytes, flags: int, exptime: int, length: nat,
                            cas: Option<int>, noreply: bool)
    requires IsKeyValid(key)
    ensures SplitSpace(StorageHeaderLine(cmd, key, flags, exptime, length, cas, noreply))
            == StorageTokens(cmd, key, flags, exptime, length, cas, noreply)
    ensures CR !in StorageHeaderLine(cmd, key, flags, exptime, length, cas, noreply)
  {
    var ts := StorageTokens(cmd, key, flags, exptime, length, cas, noreply);
    StorageHeaderIsJoin(cmd, key, flags, exptime, length, cas, noreply);
    StorageTokensClean(cmd, key, flags, exptime, length, cas, noreply);
    AllCleanNoSpace(ts);
    SplitJoin(ts);
    JoinSpaceExcludes(ts, CR);
  }

  /** The decoder accepts a line exactly when its tokens decode field by field. */
  lemma ParseStorageHeaderFields(line: bytes, h: StorageHeader)
    requires |SplitSpace(line)| >= 5
    requires StorageCmdFromName(SplitSpace(line)[0]) == Some(h.cmd) && SplitSpace(line)[1] == h.key
    requires ParseInt(SplitSpace(line)[2]) == Some(h.flags) && ParseInt(SplitSpace(line)[3]) == Some(h.exptime)
    requires ParseNat(SplitSpace(line)[4]) == Some(h.length)
    requires ParseStorageTail(SplitSpace(line)[5..]) == Some((h.cas, h.noreply))
    ensures ParseStorageHeader(line) == Some(h)
  {
  }

  /** Every token of a header decodes to the field it was written from. */
  lemma StorageTokensDecode(cmd: StorageCmd, key: bytes, flags: int, exptime: int, length: nat,
                            cas: Option<int>, noreply: bool)
    ensures var ts := StorageTokens(cmd, key, flags, exptime, length, cas, noreply);
            |ts| >= 5 && StorageCmdFromName(ts[0]) == Some(cmd) && ts[1] == key
            && ParseInt(ts[2]) == Some(flags) && ParseInt(ts[3]) == Some(exptime)
            && ParseNat(ts[4]) == Some(length) && ParseStorageTail(ts[5..]) == Some((cas, noreply))
  {
    var ts := StorageTokens(cmd, key, flags, exptime, length, cas, noreply);
    assert ts[5..] == CasToken(cas) + NoreplyToken(noreply);
    StorageCmdNameRoundTrip(cmd);
    IntDecimalRoundTrip(flags);
    IntDecimalRoundTrip(exptime);
    NatDecimalRoundTrip(length);
    StorageTailRoundTrip(cas, noreply);
  }

  lemma StorageHeaderRoundTrip(cmd: StorageCmd, key: bytes, flags: int, exptime: int,
                               length: nat, cas: Option<int>, noreply: bool)
    requires IsKeyValid(key)
    ensures ParseStorageHeader(StorageHeaderLine(cmd, key, flags, exptime, length, cas, noreply))
            == Some(StorageHeader(cmd, key, flags, exptime, length, cas, noreply))
    ensures CR !in StorageHeaderLine(cmd, key, flags, exptime, length, cas, noreply)
  {
    var line := StorageHeaderLine(cmd, key, flags, exptime, length, cas, noreply);
    StorageHeaderTokens(cmd, key, flags, exptime, length, cas, noreply);
    StorageTokensDecode(cmd, key, flags, exptime, length, cas, noreply);
    ParseStorageHeaderFields(line, StorageHeader(cmd, key, flags, exptime, length, cas, noreply));
  }

  /** A header line without CR that decodes to `h`, followed by CRLF, exactly `h.length` data
      bytes and CRLF, decodes to `h` and the data. */
  lemma StorageFrameSplit(line: bytes, value: bytes, h: StorageHeader)
    requires CR !in line && ParseStorageHeader(line) == Some(h) && h.length == |value|
    ensures ParseStorageFrame(line + CRLF + value + CRLF) == Some((h, value))
  {
    var frame := line + CRLF + value + CRLF;
    assert frame[|line|] == CR && frame[..|line|] == line;
    FirstIndexAt(frame, CR, |line|);
    var rest := frame[|line|..];
    assert rest == CRLF + value + CRLF;
    assert rest[2..|value| + 2] == value;
  }

  /** Decoding a built storage frame gives back every field, the declared length equals
      the length of the value, and the data block is the value. */
  lemma StorageFrameRoundTrip(cmd: StorageCmd, key: bytes, value: bytes, flags: int,
                              exptime: int, noreply: bool, cas: Option<int>)
    requires IsKeyValid(key)
    ensures ParseStorageFrame(StorageFrame(cmd, key, value, flags, exptime, noreply, cas))
            == Some((StorageHeader(cmd, key, flags, exptime, |value|, cas, noreply), value))
  {
    StorageHeaderRoundTrip(cmd, key, flags, exptime, |value|, cas, noreply);
    StorageFrameSplit(StorageHeaderLine(cmd, key, flags, exptime, |value|, cas, noreply), value,
                      StorageHeader(cmd, key, flags, exptime, |value|, cas, noreply));
  }

  // ---------------------------------------------------------------------------
  // Single-line commands
  // ---------------------------------------------------------------------------

  /** Reference decoder for a one-line command: the tokens of the line before its CRLF. */
  function ParseCommandLine(frame: bytes): Option<seq<bytes>>
  {
    if |frame| >= 2 && frame[|frame| - 2..] == CRLF && CR !in frame[..|frame| - 2]
    then Some(SplitSpace(frame[..|frame| - 2]))
    else None
  }

  /** Tokens built from literals, numerals and valid keys are clean tokens. */
  predicate CleanToken(t: bytes) { NoSpace(t) && CR !in t }

  predicate AllClean(ts: seq<bytes>) { forall k :: 0 <= k < |ts| ==> CleanToken(ts[k]) }

  lemma AllCleanAppend(ts: seq<bytes>, us: seq<bytes>)
    requires AllClean(ts) && AllClean(us)
    ensures AllClean(ts + us)
  {
    forall k | 0 <= k < |ts + us| ensures CleanToken((ts + us)[k]) {
      if k < |ts| { assert (ts + us)[k] == ts[k]; } else { assert (ts + us)[k] == us[k - |ts|]; }
    }
  }

  lemma AllCleanNoSpace(ts: seq<bytes>)
    requires AllClean(ts)
    ensures forall k :: 0 <= k < |ts| ==> NoSpace(ts[k])
    ensures forall k :: 0 <= k < |ts| ==> CR !in ts[k]
  {
  }

  lemma CommandLineRoundTrip(ts: seq<bytes>)
    requires |ts| >= 1 && AllClean(ts)
    ensures ParseCommandLine(JoinSpace(ts) + CRLF) == Some(ts)
  {
    var f := JoinSpace(ts) + CRLF;
    assert f[..|f| - 2] == JoinSpace(ts);
    AllCleanNoSpace(ts);
    JoinSpaceExcludes(ts, CR);
    SplitJoin(ts);
  }

  lemma NoreplyClean()
    ensures CleanToken(Ascii("noreply"))
  {
    WordIsClean("noreply");
  }

  lemma DecimalClean(i: int)
    ensures CleanToken(IntToDecimal(i))
  {
    DecimalHasNoSeparators(i);
  }

  function NoreplyToken(noreply: bool): seq<bytes>
  {
    if noreply then [Ascii("noreply")] else []
  }

  /** A command line `ts` followed by the optional noreply: its tokens and its decoding. */
  lemma NoreplyJoin(ts: seq<bytes>, noreply: bool)
    requires |ts| >= 1
    ensures JoinSpace(ts + NoreplyToken(noreply)) == JoinSpace(ts) + NoreplySuffix(noreply)
  {
    if noreply {
      JoinAppend(ts, [Ascii("noreply")]);
    } else {
      assert ts + NoreplyToken(noreply) == ts;
    }
  }

  /** A command line of tokens `ts` followed by the optional noreply decodes to its tokens. */
  lemma LineWithNoreply(ts: seq<bytes>, noreply: bool)
    requires |ts| >= 1 && AllClean(ts)
    ensures ParseCommandLine(JoinSpace(ts) + NoreplySuffix(noreply) + CRLF) == Some(ts + NoreplyToken(noreply))
  {
    NoreplyClean();
    assert AllClean(NoreplyToken(noreply));
    AllCleanAppend(ts, NoreplyToken(noreply));
    NoreplyJoin(ts, noreply);
    CommandLineRoundTrip(ts + NoreplyToken(noreply));
  }

  lemma JoinThree(a: bytes, b: bytes, c: bytes)
    ensures JoinSpace([a, b, c]) == a + [SP] + b + [SP] + c
  {
    JoinCons(b, [c]);
    assert [a, b, c] == [a] + [b, c];
    JoinCons(a, [b, c]);
  }

  lemma JoinTwo(a: bytes, b: bytes)
    ensures JoinSpace([a, b]) == a + [SP] + b
  {
    JoinCons(a, [b]);
  }

  datatype CounterCmd = Incr | Decr

  function CounterCmdName(c: CounterCmd): bytes
  {
    match c
    case Incr => Ascii("incr")
    case Decr => Ascii("decr")
  }

  /** `<incr|decr> <key> <delta>[ noreply]\r\n`. */
  function IncrDecrFrame(cmd: CounterCmd, key: bytes, delta: int, noreply: bool): bytes
  {
    CounterCmdName(cmd) + [SP] + key + [SP] + IntToDecimal(delta) + NoreplySuffix(noreply) + CRLF
  }

  /** `_Pipeline._incr_decr_command`: a negative delta, then an invalid key, are refused. */
  function BuildIncrDecrCommand(cmd: CounterCmd, key: bytes, delta: int, noreply: bool): (r: Result<bytes, Error>)
    ensures r.Ok? <==> delta >= 0 && IsKeyValid(key)
    ensures r == Err(ValueError(NegativeDelta)) <==> delta < 0
    ensures r == Err(ValueError(InvalidKey)) <==> delta >= 0 && !IsKeyValid(key)
    ensures r.Ok? ==>
              ParseCommandLine(r.value) == Some([CounterCmdName(cmd), key, NatToDecimal(delta)] + NoreplyToken(noreply))
  {
    if delta < 0 then Err(ValueError(NegativeDelta))
    else if !IsKeyValid(key) then Err(ValueError(InvalidKey))
    else
      IncrDecrRoundTrip(cmd, key, delta, noreply);
      Ok(IncrDecrFrame(cmd, key, delta, noreply))
  }

  lemma IncrDecrRoundTrip(cmd: CounterCmd, key: bytes, delta: nat, noreply: bool)
    requires IsKeyValid(key)
    ensures ParseCommandLine(IncrDecrFrame(cmd, key, delta, noreply))
            == Some([CounterCmdName(cmd), key, NatToDecimal(delta)] + NoreplyToken(noreply))
  {
    var ts := [CounterCmdName(cmd), key, NatToDecimal(delta)];
    JoinThree(ts[0], ts[1], ts[2]);
    ValidKeyHasNoSeparators(key);
    DecimalClean(delta);
    WordIsClean("incr");
    WordIsClean("decr");
    LineWithNoreply(ts, noreply);
  }

  datatype RetrievalCmd = Get | Gets

  function RetrievalCmdName(c: RetrievalCmd): bytes
  {
    match c
    case Get => Ascii("get")
    case Gets => Ascii("gets")
  }

  /** `<get|gets> <k1> <k2> ...\r\n`: the keys joined by single spaces. */
  function RetrievalFrame(cmd: RetrievalCmd, keys: seq<bytes>): bytes
  {
    RetrievalCmdName(cmd) + [SP] + JoinSpace(keys) + CRLF
  }

  predicate AllKeysValid(keys: seq<bytes>)
  {
    forall k :: 0 <= k < |keys| ==> IsKeyValid(keys[k])
  }

  /** `_Pipeline._retrieval_command`: one invalid key refuses the whole command. */
  function BuildRetrievalCommand(cmd: RetrievalCmd, keys: seq<bytes>): (r: Result<bytes, Error>)
    ensures r.Ok? <==> AllKeysValid(keys)
    ensures r.Err? ==> r.error == ValueError(InvalidKey)
    ensures r.Ok? && |keys| > 0 ==> ParseCommandLine(r.value) == Some([RetrievalCmdName(cmd)] + keys)
  {
    if !AllKeysValid(keys) then Err(ValueError(InvalidKey))
    else
      RetrievalRoundTrip(cmd, keys);
      Ok(RetrievalFrame(cmd, keys))
  }

  lemma AllKeysClean(keys: seq<bytes>)
    requires AllKeysValid(keys)
    ensures AllClean(keys)
  {
    forall k | 0 <= k < |keys| ensures CleanToken(keys[k]) { ValidKeyHasNoSeparators(keys[k]); }
  }

  lemma RetrievalRoundTrip(cmd: RetrievalCmd, keys: seq<bytes>)
    requires AllKeysValid(keys)
    ensures |keys| > 0 ==> ParseCommandLine(RetrievalFrame(cmd, keys)) == Some([RetrievalCmdName(cmd)] + keys)
  {
    if |keys| > 0 {
      JoinCons(RetrievalCmdName(cmd), keys);
      AllKeysClean(keys);
      WordIsClean("get");
      WordIsClean("gets");
      AllCleanAppend([RetrievalCmdName(cmd)], keys);
      CommandLineRoundTrip([RetrievalCmdName(cmd)] + keys);
    }
  }

  /** An empty key list still yields a frame, with a trailing space: `get \r\n`. */
  lemma EmptyRetrieval()
    ensures BuildRetrievalCommand(Get, []) == Ok(Ascii("get \r\n"))
  {
    assert Ascii("get") + [SP] + JoinSpace([]) + CRLF == Ascii("get \r\n");
  }

  datatype GatCmd = Gat | Gats

  function GatCmdName(c: GatCmd): bytes
  {
    match c
    case Gat => Ascii("gat")
    case Gats => Ascii("gats")
  }

  /** `<gat|gats> <exptime> <k1> <k2> ...\r\n`. */
  function GetAndTouchFrame(cmd: GatCmd, exptime: int, keys: seq<bytes>): bytes
  {
    GatCmdName(cmd) + [SP] + IntToDecimal(exptime) + [SP] + JoinSpace(keys) + CRLF
  }

  /** `_Pipeline._get_and_touch_command`: one invalid key refuses the whole command. */
  function BuildGetAndTouchCommand(cmd: GatCmd, exptime: int, keys: seq<bytes>): (r: Result<bytes, Error>)
    ensures r.Ok? <==> AllKeysValid(keys)
    ensures r.Err? ==> r.error == ValueError(InvalidKey)
    ensures r.Ok? && |keys| > 0 ==>
              ParseCommandLine(r.value) == Some([GatCmdName(cmd), IntToDecimal(exptime)] + keys)
  {
    if !AllKeysValid(keys) then Err(ValueError(InvalidKey))
    else
      GetAndTouchRoundTrip(cmd, exptime, keys);
      Ok(GetAndTouchFrame(cmd, exptime, keys))
  }

  lemma GetAndTouchRoundTrip(cmd: GatCmd, exptime: int, keys: seq<bytes>)
    requires AllKeysValid(keys)
    ensures |keys| > 0 ==>
              ParseCommandLine(GetAndTouchFrame(cmd, exptime, keys)) == Some([GatCmdName(cmd), IntToDecimal(exptime)] + keys)
  {
    if |keys| > 0 {
      var ts := [GatCmdName(cmd), IntToDecimal(exptime)] + keys;
      JoinCons(IntToDecimal(exptime), keys);
      assert ts == [GatCmdName(cmd)] + ([IntToDecimal(exptime)] + keys);
      JoinCons(GatCmdName(cmd), [IntToDecimal(exptime)] + keys);
      AllKeysClean(keys);
      DecimalClean(exptime);
      WordIsClean("gat");
      WordIsClean("gats");
      AllCleanAppend([GatCmdName(cmd), IntToDecimal(exptime)], keys);
      assert GetAndTouchFrame(cmd, exptime, keys) == JoinSpace(ts) + CRLF;
      CommandLineRoundTrip(ts);
    }
  }

  /** `touch <key> <exptime>[ noreply]\r\n` (the pipeline does not validate the key). */
  function TouchFrame(key: bytes, exptime: int, noreply: bool): bytes
  {
    Ascii("touch") + [SP] + key + [SP] + IntToDecimal(exptime) + NoreplySuffix(noreply) + CRLF
  }

  lemma TouchRoundTrip(key: bytes, exptime: int, noreply: bool)
    requires IsKeyValid(key)
    ensures ParseCommandLine(TouchFrame(key, exptime, noreply))
            == Some([Ascii("touch"), key, IntToDecimal(exptime)] + NoreplyToken(noreply))
  {
    var ts := [Ascii("touch"), key, IntToDecimal(exptime)];
    JoinThree(ts[0], ts[1], ts[2]);
    ValidKeyHasNoSeparators(key);
    DecimalClean(exptime);
    WordIsClean("touch");
    LineWithNoreply(ts, noreply);
  }

  /** `delete <key>[ noreply]\r\n` (the pipeline does not validate the key). */
  function DeleteFrame(key: bytes, noreply: bool): bytes
  {
    Ascii("delete") + [SP] + key + NoreplySuffix(noreply) + CRLF
  }

  lemma DeleteRoundTrip(key: bytes, noreply: bool)
    requires IsKeyValid(key)
    ensures ParseCommandLine(DeleteFrame(key, noreply)) == Some([Ascii("delete"), key] + NoreplyToken(noreply))
  {
    var ts := [Ascii("delete"), key];
    JoinTwo(ts[0], ts[1]);
    ValidKeyHasNoSeparators(key);
    WordIsClean("delete");
    LineWithNoreply(ts, noreply);
  }

  /** `<word> <number>[ noreply]\r\n`: the shape of flush_all, cache_memlimit and verbosity. */
  function WordNumberFrame(word: string, n: int, noreply: bool): bytes
  {
    Ascii(word) + [SP] + IntToDecimal(n) + NoreplySuffix(noreply) + CRLF
  }

  lemma WordNumberRoundTrip(word: string, n: int, noreply: bool)
    requires |word| >= 1 && IsWord(word)
    ensures ParseCommandLine(WordNumberFrame(word, n, noreply))
            == Some([Ascii(word), IntToDecimal(n)] + NoreplyToken(noreply))
  {
    var ts := [Ascii(word), IntToDecimal(n)];
    JoinTwo(ts[0], ts[1]);
    WordIsClean(word);
    DecimalClean(n);
    LineWithNoreply(ts, noreply);
  }

  /** The commands of the form `<name> <number>[ noreply]\r\n`: flush_all with its delay,
      cache_memlimit with megabytes, verbosity with a level. */
  datatype NumericCmd = FlushAll | CacheMemlimit | Verbosity

  function NumericCmdName(c: NumericCmd): string
  {
    match c
    case FlushAll => "flush_all"
    case CacheMemlimit => "cache_memlimit"
    case Verbosity => "verbosity"
  }

  /** The frame of a numeric command decodes to its name, its number and, when asked for,
      `noreply`. */
  function NumericFrame(c: NumericCmd, n: int, noreply: bool): (r: bytes)
    ensures ParseCommandLine(r) == Some([Ascii(NumericCmdName(c)), IntToDecimal(n)] + NoreplyToken(noreply))
  {
    WordNumberRoundTrip(NumericCmdName(c), n, noreply);
    WordNumberFrame(NumericCmdName(c), n, noreply)
  }

  /** `version\r\n`. */
  function VersionFrame(): (r: bytes)
    ensures ParseCommandLine(r) == Some([Ascii("version")])
  {
    WordIsClean("version");
    CommandLineRoundTrip([Ascii("version")]);
    Ascii("version") + CRLF
  }

  /** `stats <args>\r\n`, or `stats\r\n` when there are no arguments. */
  function StatsFrame(args: seq<bytes>): (r: bytes)
    ensures AllClean(args) ==> ParseCommandLine(r) == Some([Ascii("stats")] + args)
  {
    WordIsClean("stats");
    if args == [] then
      CommandLineRoundTrip([Ascii("stats")]);
      assert [Ascii("stats")] + args == [Ascii("stats")];
      Ascii("stats") + CRLF
    else
      JoinCons(Ascii("stats"), args);
      if AllClean(args) then
        CommandLineRoundTrip([Ascii("stats")] + args);
        Ascii("stats") + [SP] + JoinSpace(args) + CRLF
      else
        Ascii("stats") + [SP] + JoinSpace(args) + CRLF
  }
}

=== FILE: keys.dfy ===
/** Memcached key validity: 1 to 250 bytes, each a printable non-space ASCII byte. */
module Keys {
  import opened Bytes

  const MaxKeyLength: nat := 250

  /** A byte allowed in a key: 0x21 ('!') to 0x7e ('~'). */
  predicate IsKeyByte(b: byte) { 0x21 <= b <= 0x7e }

  predicate IsKeyValid(key: bytes)
  {
    1 <= |key| <= MaxKeyLength && forall i :: 0 <= i < |key| ==> IsKeyByte(key[i])
  }

  /** A valid key holds no space, CR or LF, so it is one token of a command line. */
  lemma ValidKeyHasNoSeparators(key: bytes)
    requires IsKeyValid(key)
    ensures NoSpace(key) && CR !in key && LF !in key
  {
  }

  /** The accepted examples of the key-validation tests. */
  lemma ValidKeyExamples()
    ensures IsKeyValid(Ascii("foo")) && IsKeyValid(Ascii("123foobarfoo123"))
  {
    PrintableKey("foo");
    PrintableKey("123foobarfoo123");
  }

  /** A literal of 1 to 250 printable non-space characters is a valid key. */
  lemma PrintableKey(s: string)
    requires 1 <= |s| <= MaxKeyLength && forall i :: 0 <= i < |s| ==> '!' <= s[i] <= '~'
    ensures IsKeyValid(Ascii(s))
  {
  }

  /** The refused examples of the key-validation tests: a space, a trailing CR or LF, and a
      251-byte key. */
  lemma InvalidKeyExamples()
    ensures !IsKeyValid(Ascii(" ")) && !IsKeyValid(Ascii("foo "))
    ensures !IsKeyValid(Ascii("foo\n")) && !IsKeyValid(Ascii("foo\r"))
    ensures !IsKeyValid(seq(251, _ => SP))
  {
    assert Ascii(" ")[0] == SP;
    assert Ascii("foo ")[3] == SP;
    assert Ascii("foo\n")[3] == LF;
    assert Ascii("foo\r")[3] == CR;
  }

  /** The boundary of the length rule: 250 bytes are accepted, 251 refused. */
  lemma KeyLengthBoundary(b: byte)
    requires IsKeyByte(b)
    ensures IsKeyValid(seq(250, _ => b))
    ensures !IsKeyValid(seq(251, _ => b))
    ensures !IsKeyValid([])
  {
  }

  /** The length of the longest run at the start of `s` of bytes from the character class
      `[\x21-\x7e]`, which is the range of key bytes. */
  function ClassRun(s: bytes): (n: nat)
    ensures n <= |s|
    ensures forall i :: 0 <= i < n ==> IsKeyByte(s[i])
    ensures n < |s| ==> !IsKeyByte(s[n])
  {
    if s == [] || !IsKeyByte(s[0]) then 0 else 1 + ClassRun(s[1..])
  }

  /** The first `m` bytes of `key` all belong to the class. */
  predicate ClassPrefix(key: bytes, m: int) { m <= ClassRun(key) }

  /** What `re.match(b"^[\x21-\x7e]{1,250}$", key)` accepts in the key-validation
      benchmark: some stopping point `m` of the repetition `{1,250}` is followed by `$`, which without
      MULTILINE matches at the end and also just before a final "\n". */
  predicate RegexAccepts(key: bytes)
  {
    exists m :: 1 <= m <= 250 && ClassPrefix(key, m) && (m == |key| || (m + 1 == |key| && key[m] == LF))
  }

  /** The benchmark regex accepts `12345678\n`, the second key it is run on, which the key
      rule refuses. */
  lemma RegexAcceptsTrailingNewline()
    ensures RegexAccepts(Ascii("12345678\n")) && !IsKeyValid(Ascii("12345678\n"))
  {
    var k := Ascii("12345678\n");
    PrintableKey("12345678");
    assert k == Ascii("12345678") + [LF];
    ValidKeyThenNewline(Ascii("12345678"));
  }

  /** Any valid key followed by one LF passes the `$` pattern and fails the key rule. */
  lemma ValidKeyThenNewline(key: bytes)
    requires IsKeyValid(key)
    ensures RegexAccepts(key + [LF]) && !IsKeyValid(key + [LF])
  {
    var k := key + [LF];
    assert k[..|key|] == key;
    AnchoredRegexIsKeyRule(k);
  }

  /** The fully anchored form (`\Z`, or `re.fullmatch`) of the same pattern: the
      repetition must stop at the end of the key. */
  predicate AnchoredRegexAccepts(key: bytes)
  {
    exists m :: 1 <= m <= 250 && ClassPrefix(key, m) && m == |key|
  }

  /** The anchored pattern accepts exactly the valid keys; the `$` pattern accepts exactly
      the valid keys and the valid keys followed by one LF. */
  lemma AnchoredRegexIsKeyRule(key: bytes)
    ensures AnchoredRegexAccepts(key) <==> IsKeyValid(key)
    ensures RegexAccepts(key) <==>
              IsKeyValid(key) || (|key| >= 2 && key[|key| - 1] == LF && IsKeyValid(key[..|key| - 1]))
    ensures RegexAccepts(key) && LF !in key ==> IsKeyValid(key)
  {
    if IsKeyValid(key) {
      assert ClassPrefix(key, |key|);
    }
    if |key| >= 2 && key[|key| - 1] == LF && IsKeyValid(key[..|key| - 1]) {
      assert ClassPrefix(key, |key| - 1);
    }
  }
}

=== FILE: line_parser.dfy ===
/** The streaming one-line reply detector of bench_parser_line.py: every chunk is appended
    to a growing buffer, and completion is signalled once the buffer ends with CR LF. */
module LineParser {
  import opened Wrappers
  import opened Bytes

  predicate EndsWithCrlf(b: bytes) { |b| >= 2 && b[|b| - 2] == CR && b[|b| - 1] == LF }

  /** A CR immediately followed by an LF somewhere in `v`. */
  predicate HasCrlf(v: bytes) { exists i :: 0 <= i < |v| - 1 && v[i] == CR && v[i + 1] == LF }

  /** The parser's state: the bytes received so far, and whether the event was set. */
  datatype LineState = LineState(buffer: bytes, signalled: bool)

  /** One `feed_data` call. The chunk is appended; a buffer of one byte returns early; an
      empty buffer fails on the `[last - 1]` index; otherwise the event is set when the last
      two bytes are CR LF. The event is never cleared. */
  function Feed(s: LineState, chunk: bytes): (r: Result<LineState, Error>)
    ensures r.Err? <==> |s.buffer| + |chunk| == 0
    ensures r.Err? ==> r.error == IndexError
    ensures r.Ok? ==> r.value.buffer == s.buffer + chunk
    ensures r.Ok? ==> (r.value.signalled <==> s.signalled || EndsWithCrlf(s.buffer + chunk))
  {
    var b := s.buffer + chunk;
    var last := |b| - 1;
    if last == 0 then Ok(LineState(b, s.signalled))
    else if last < 0 then Err(IndexError)
    else if b[last - 1] == CR && b[last] == LF then Ok(LineState(b, true))
    else Ok(LineState(b, s.signalled))
  }

  /** The parser as the class of the benchmark: a byte buffer extended in place and the
      completion event. */
  class OneLineParser {
    var buffer: bytes
    var signalled: bool

    constructor()
      ensures buffer == [] && !signalled
    {
      buffer := [];
      signalled := false;
    }

    method FeedData(chunk: bytes) returns (o: Outcome<Error>)
      modifies this
      ensures buffer == old(buffer) + chunk
      ensures Feed(LineState(old(buffer), old(signalled)), chunk).Ok? ==>
                o == Pass && LineState(buffer, signalled) == Feed(LineState(old(buffer), old(signalled)), chunk).value
      ensures Feed(LineState(old(buffer), old(signalled)), chunk).Err? ==>
                o == Fail(IndexError) && signalled == old(signalled)
    {
      buffer := buffer + chunk;
      var last := |buffer| - 1;
      if last == 0 {
        return Pass;
      }
      if last < 0 {
        return Fail(IndexError);
      }
      if buffer[last - 1] == CR && buffer[last] == LF {
        signalled := true;
      }
      return Pass;
    }
  }

  function EmptyChunks(): seq<bytes> { [] }

  /** A fresh parser fed the chunks in order; the first failing feed stops the run. */
  function Run(chunks: seq<bytes>): Result<LineState, Error>
    decreases |chunks|
  {
    if chunks == [] then Ok(LineState([], false))
    else
      match Run(chunks[..|chunks| - 1])
      case Err(e) => Err(e)
      case Ok(s) => Feed(s, chunks[|chunks| - 1])
  }

  /** The only failure is a first chunk that is empty; after that the buffer is the
      concatenation of the chunks. */
  lemma {:induction false} RunBuffer(chunks: seq<bytes>)
    decreases |chunks|
    ensures Run(chunks).Err? <==> |chunks| > 0 && chunks[0] == []
    ensures Run(chunks).Ok? ==> Run(chunks).value.buffer == Concat(chunks)
  {
    if chunks != [] {
      var init := chunks[..|chunks| - 1];
      RunBuffer(init);
      if init != [] {
        assert init[0] == chunks[0];
        if chunks[0] != [] {
          assert init[..1] == [chunks[0]];
          ConcatAppend(init[..1], init[1..]);
          assert init == init[..1] + init[1..];
          assert Concat(init[..1]) == chunks[0] by {
            assert init[..1][..0] == EmptyChunks();
          }
        }
      }
    }
  }

  /** The event is set exactly when the buffer ended with CR LF after some feed. */
  lemma {:induction false} RunSignalled(chunks: seq<bytes>)
    decreases |chunks|
    requires Run(chunks).Ok?
    ensures Run(chunks).value.signalled <==>
              exists k :: 1 <= k <= |chunks| && EndsWithCrlf(Concat(chunks[..k]))
  {
    if chunks != [] {
      var n := |chunks|;
      var init := chunks[..n - 1];
      RunBuffer(init);
      RunSignalled(init);
      assert chunks[..n] == chunks;
      assert Concat(chunks) == Concat(init) + chunks[n - 1];
      forall k | 1 <= k <= n - 1
        ensures chunks[..k] == init[..k]
      {
      }
      if Run(chunks).value.signalled {
        if !EndsWithCrlf(Concat(chunks)) {
          var k :| 1 <= k <= n - 1 && EndsWithCrlf(Concat(init[..k]));
          assert chunks[..k] == init[..k];
        }
      } else {
        forall k | 1 <= k <= n ensures !EndsWithCrlf(Concat(chunks[..k])) {
          if k < n { assert chunks[..k] == init[..k]; }
        }
      }
    }
  }

  /** A proper prefix of `v + CR LF`, for a `v` without CR LF inside, never ends with CR LF. */
  lemma ProperPrefixNotComplete(v: bytes, p: bytes)
    requires !HasCrlf(v)
    requires |p| < |v| + 2 && p <= v + CRLF
    ensures !EndsWithCrlf(p)
  {
  }

  lemma ConcatPrefix(chunks: seq<bytes>, k: nat)
    requires k <= |chunks|
    ensures Concat(chunks[..k]) <= Concat(chunks)
  {
    assert chunks == chunks[..k] + chunks[k..];
    ConcatAppend(chunks[..k], chunks[k..]);
  }

  /** Completion depends only on the bytes, not on how they were split: feeding `v + CR LF`
      in any chunks (the first non-empty) signals at the end and at no earlier point, and
      the buffer then holds exactly those bytes. */
  lemma ChunkingIndependence(v: bytes, chunks: seq<bytes>)
    requires !HasCrlf(v)
    requires Concat(chunks) == v + CRLF && |chunks| > 0 && chunks[0] != []
    ensures Run(chunks) == Ok(LineState(v + CRLF, true))
    ensures forall k :: 0 <= k <= |chunks| && |Concat(chunks[..k])| < |v| + 2 ==>
              Run(chunks[..k]).Ok? && !Run(chunks[..k]).value.signalled
  {
    RunBuffer(chunks);
    RunSignalled(chunks);
    assert chunks[..|chunks|] == chunks;
    forall k | 0 <= k <= |chunks| && |Concat(chunks[..k])| < |v| + 2
      ensures Run(chunks[..k]).Ok? && !Run(chunks[..k]).value.signalled
    {
      var pre := chunks[..k];
      RunBuffer(pre);
      if k > 0 { assert pre[0] == chunks[0]; }
      if Run(pre).Ok? && k > 0 {
        RunSignalled(pre);
        forall j | 1 <= j <= k ensures !EndsWithCrlf(Concat(pre[..j])) {
          assert pre[..j] == chunks[..j];
          ConcatPrefix(chunks, j);
          ConcatPrefix(pre, j);
          ProperPrefixNotComplete(v, Concat(chunks[..j]));
        }
      }
    }
  }

  /** `value()` of the completed one-line parser: the line without its CR LF. */
  function LineValue(buffer: bytes): (r: bytes)
    requires EndsWithCrlf(buffer)
    ensures r + CRLF == buffer
  {
    buffer[..|buffer| - 2]
  }

  /** The chunkings of the benchmark (`asdfasdf\r` then `\n`) and of the one-line parser's
      unit tests: nothing is signalled before the last chunk, and the value is the line. */
  lemma RunOne(a: bytes)
    ensures Run([a]) == Feed(LineState([], false), a)
  {
    assert [a][..0] == EmptyChunks();
  }

  lemma RunMore(chunks: seq<bytes>, a: bytes)
    ensures Run(chunks + [a]) == match Run(chunks) case Err(e) => Err(e) case Ok(s) => Feed(s, a)
  {
    assert (chunks + [a])[..|chunks|] == chunks;
  }

  /** The benchmark's chunking: `asdfasdf\r` does not complete the line, `\n` then does. */
  lemma ParserExamples()
    ensures Run([Ascii("asdfasdf\r")]) == Ok(LineState(Ascii("asdfasdf\r"), false))
    ensures Run([Ascii("asdfasdf\r"), Ascii("\n")]) == Ok(LineState(Ascii("asdfasdf\r\n"), true))
  {
    var a, b := Ascii("asdfasdf\r"), Ascii("\n");
    assert [] + a == a && a[8] == CR && a[7] != CR;
    RunOne(a);
    assert a + b == Ascii("asdfasdf\r\n");
    RunMore([a], b);
    assert [a] + [b] == [a, b];
  }

  /** The unit tests' empty line in one chunk completes at once, with the empty value. */
  lemma CrlfExample()
    ensures Run([CRLF]) == Ok(LineState(CRLF, true)) && LineValue(CRLF) == []
  {
    assert [] + CRLF == CRLF;
    RunOne(CRLF);
  }

  /** The unit tests' empty line in two chunks: only the final `\n` completes it. */
  lemma SplitCrlfExample()
    ensures Run([[CR]]) == Ok(LineState([CR], false))
    ensures Run([[CR], [LF]]) == Ok(LineState(CRLF, true))
  {
    assert [] + [CR] == [CR];
    RunOne([CR]);
    assert [CR] + [LF] == CRLF;
    RunMore([[CR]], [LF]);
    assert [[CR]] + [[LF]] == [[CR], [LF]];
  }

  /** The unit tests' chunkings of `foo`: nothing completes before the final `\n`, and the
      value is `foo`. */
  lemma FooLineExamples()
    ensures Run([Ascii("foo"), Ascii("\r")]) == Ok(LineState(Ascii("foo\r"), false))
    ensures Run([Ascii("foo"), Ascii("\r"), Ascii("\n")]) == Ok(LineState(Ascii("foo\r\n"), true))
    ensures LineValue(Ascii("foo\r\n")) == Ascii("foo")
  {
    var b, c, r := Ascii("\n"), Ascii("foo"), Ascii("\r");
    assert [] + c == c && c[2] != LF;
    RunOne(c);
    assert c + r == Ascii("foo\r") && Ascii("foo\r")[2] != CR;
    RunMore([c], r);
    assert [c] + [r] == [c, r];
    assert Ascii("foo\r") + b == Ascii("foo\r\n");
    RunMore([c, r], b);
    assert [c, r] + [b] == [c, r, b];
    assert Ascii("foo\r\n")[..3] == c;
  }

  /** The chunking `foo` then `\r\n` of the unit tests. */
  lemma FooCrlfExample()
    ensures Run([Ascii("foo"), CRLF]) == Ok(LineState(Ascii("foo\r\n"), true))
  {
    var c := Ascii("foo");
    assert [] + c == c && c[2] != LF;
    RunOne(c);
    assert c + CRLF == Ascii("foo\r\n");
    RunMore([c], CRLF);
    assert [c] + [CRLF] == [c, CRLF];
  }
}

=== FILE: pipeline.dfy ===
/** The emcache `_Pipeline`: a stack of frames that builders push onto one at a time,
    sent as one concatenated write by `execute`, and emptied afterwards or on exit. */
module Pipeline {
  import opened Wrappers
  import opened Bytes
  import opened Frames
  import EmcacheClient

  /** How a builder's result lands on the stack: a built frame is pushed and the call
      succeeds; a refused one leaves the stack as it was and raises the builder's error. */
  predicate Pushes(before: seq<bytes>, after: seq<bytes>, o: Outcome<Error>, built: Result<bytes, Error>)
  {
    match built
    case Ok(frame) => after == before + [frame] && o == Pass
    case Err(e) => after == before && o == Fail(e)
  }

  class Pipeline {
    /** The client the pipeline was opened on; only its closed flag is consulted. */
    const client: EmcacheClient.Client
    /** The frames pushed so far, in push order. */
    var stack: seq<bytes>

    constructor(client: EmcacheClient.Client)
      ensures this.client == client && stack == []
    {
      this.client := client;
      stack := [];
    }

    method Push(built: Result<bytes, Error>) returns (o: Outcome<Error>)
      modifies this
      ensures Pushes(old(stack), stack, o, built)
    {
      if built.Ok? {
        stack := stack + [built.value];
        o := Pass;
      } else {
        o := Fail(built.error);
      }
    }

    /** `__aexit__`: the stack is emptied whatever happened inside the block. */
    method Exit()
      modifies this
      ensures stack == []
    {
      stack := [];
    }

    /** `execute`: a closed client raises before anything is touched; otherwise all frames are
        written as one byte string in push order, and the stack is emptied. The returned bytes
        are what is handed to the connection; decoding the server's replies is not modelled. */
    method Execute() returns (sent: Result<bytes, Error>)
      modifies this
      ensures client.closed ==> sent == Err(RuntimeError) && stack == old(stack)
      ensures !client.closed ==> sent == Ok(Concat(old(stack))) && stack == []
    {
      if client.closed {
        return Err(RuntimeError);
      }
      var commands := Concat(stack);
      stack := [];
      return Ok(commands);
    }

    method Get(key: bytes) returns (o: Outcome<Error>)
      modifies this
      ensures Pushes(old(stack), stack, o, BuildRetrievalCommand(RetrievalCmd.Get, [key]))
    {
      o := Push(BuildRetrievalCommand(RetrievalCmd.Get, [key]));
    }

    method Gets(key: bytes) returns (o: Outcome<Error>)
      modifies this
      ensures Pushes(old(stack), stack, o, BuildRetrievalCommand(RetrievalCmd.Gets, [key]))
    {
      o := Push(BuildRetrievalCommand(RetrievalCmd.Gets, [key]));
    }

    method GetMany(keys: seq<bytes>) returns (o: Outcome<Error>)
      modifies this
      ensures Pushes(old(stack), stack, o, BuildRetrievalCommand(RetrievalCmd.Get, keys))
    {
      o := Push(BuildRetrievalCommand(RetrievalCmd.Get, keys));
    }

    method GetsMany(keys: seq<bytes>) returns (o: Outcome<Error>)
      modifies this
      ensures Pushes(old(stack), stack, o, BuildRetrievalCommand(RetrievalCmd.Gets, keys))
    {
      o := Push(BuildRetrievalCommand(RetrievalCmd.Gets, keys));
    }

    method Set(key: bytes, value: bytes, flags: int, exptime: int, noreply: bool) returns (o: Outcome<Error>)
      modifies this
      ensures Pushes(old(stack), stack, o, BuildStorageCommand(StorageCmd.Set, key, value, flags, exptime, noreply, None))
    {
      o := Push(BuildStorageCommand(StorageCmd.Set, key, value, flags, exptime, noreply, None));
    }

    method Add(key: bytes, value: bytes, flags: int, exptime: int, noreply: bool) returns (o: Outcome<Error>)
      modifies this
      ensures Pushes(old(stack), stack, o, BuildStorageCommand(StorageCmd.Add, key, value, flags, exptime, noreply, None))
    {
      o := Push(BuildStorageCommand(StorageCmd.Add, key, value, flags, exptime, noreply, None));
    }

    method Replace(key: bytes, value: bytes, flags: int, exptime: int, noreply: bool) returns (o: Outcome<Error>)
      modifies this
      ensures Pushes(old(stack), stack, o, BuildStorageCommand(StorageCmd.Replace, key, value, flags, exptime, noreply, None))
    {
      o := Push(BuildStorageCommand(StorageCmd.Replace, key, value, flags, exptime, noreply, None));
    }

    /** append always sends flags 0 and exptime 0. */
    method Append(key: bytes, value: bytes, noreply: bool) returns (o: Outcome<Error>)
      modifies this
      ensures Pushes(old(stack), stack, o, BuildStorageCommand(StorageCmd.Append, key, value, 0, 0, noreply, None))
    {
      o := Push(BuildStorageCommand(StorageCmd.Append, key, value, 0, 0, noreply, None));
    }

    /** prepend always sends flags 0 and exptime 0. */
    method Prepend(key: bytes, value: bytes, noreply: bool) returns (o: Outcome<Error>)
      modifies this
      ensures Pushes(old(stack), stack, o, BuildStorageCommand(StorageCmd.Prepend, key, value, 0, 0, noreply, None))
    {
      o := Push(BuildStorageCommand(StorageCmd.Prepend, key, value, 0, 0, noreply, None));
    }

    method CompareAndSwap(key: bytes, value: bytes, cas: int, flags: int, exptime: int, noreply: bool)
      returns (o: Outcome<Error>)
      modifies this
      ensures Pushes(old(stack), stack, o, BuildStorageCommand(StorageCmd.Cas, key, value, flags, exptime, noreply, Some(cas)))
    {
      o := Push(BuildStorageCommand(StorageCmd.Cas, key, value, flags, exptime, noreply, Some(cas)));
    }

    method Increment(key: bytes, delta: int, noreply: bool) returns (o: Outcome<Error>)
      modifies this
      ensures Pushes(old(stack), stack, o, BuildIncrDecrCommand(CounterCmd.Incr, key, delta, noreply))
    {
      o := Push(BuildIncrDecrCommand(CounterCmd.Incr, key, delta, noreply));
    }

    method Decrement(key: bytes, delta: int, noreply: bool) returns (o: Outcome<Error>)
      modifies this
      ensures Pushes(old(stack), stack, o, BuildIncrDecrCommand(CounterCmd.Decr, key, delta, noreply))
    {
      o := Push(BuildIncrDecrCommand(CounterCmd.Decr, key, delta, noreply));
    }

    /** touch pushes its frame without validating the key. */
    method Touch(key: bytes, exptime: int, noreply: bool) returns (o: Outcome<Error>)
      modifies this
      ensures o == Pass && stack == old(stack) + [TouchFrame(key, exptime, noreply)]
    {
      stack := stack + [TouchFrame(key, exptime, noreply)];
      o := Pass;
    }

    /** delete pushes its frame without validating the key. */
    method Delete(key: bytes, noreply: bool) returns (o: Outcome<Error>)
      modifies this
      ensures o == Pass && stack == old(stack) + [DeleteFrame(key, noreply)]
    {
      stack := stack + [DeleteFrame(key, noreply)];
      o := Pass;
    }

    method FlushAll(delay: int, noreply: bool) returns (o: Outcome<Error>)
      modifies this
      ensures o == Pass && stack == old(stack) + [NumericFrame(NumericCmd.FlushAll, delay, noreply)]
    {
      stack := stack + [NumericFrame(NumericCmd.FlushAll, delay, noreply)];
      o := Pass;
    }

    method Version() returns (o: Outcome<Error>)
      modifies this
      ensures o == Pass && stack == old(stack) + [VersionFrame()]
    {
      stack := stack + [VersionFrame()];
      o := Pass;
    }

    method Gat(exptime: int, key: bytes) returns (o: Outcome<Error>)
      modifies this
      ensures Pushes(old(stack), stack, o, BuildGetAndTouchCommand(GatCmd.Gat, exptime, [key]))
    {
      o := Push(BuildGetAndTouchCommand(GatCmd.Gat, exptime, [key]));
    }

    method Gats(exptime: int, key: bytes) returns (o: Outcome<Error>)
      modifies this
      ensures Pushes(old(stack), stack, o, BuildGetAndTouchCommand(GatCmd.Gats, exptime, [key]))
    {
      o := Push(BuildGetAndTouchCommand(GatCmd.Gats, exptime, [key]));
    }

    method GatMany(exptime: int, keys: seq<bytes>) returns (o: Outcome<Error>)
      modifies this
      ensures Pushes(old(stack), stack, o, BuildGetAndTouchCommand(GatCmd.Gat, exptime, keys))
    {
      o := Push(BuildGetAndTouchCommand(GatCmd.Gat, exptime, keys));
    }

    method GatsMany(exptime: int, keys: seq<bytes>) returns (o: Outcome<Error>)
      modifies this
      ensures Pushes(old(stack), stack, o, BuildGetAndTouchCommand(GatCmd.Gats, exptime, keys))
    {
      o := Push(BuildGetAndTouchCommand(GatCmd.Gats, exptime, keys));
    }

    method CacheMemlimit(value: int, noreply: bool) returns (o: Outcome<Error>)
      modifies this
      ensures o == Pass && stack == old(stack) + [NumericFrame(NumericCmd.CacheMemlimit, value, noreply)]
    {
      stack := stack + [NumericFrame(NumericCmd.CacheMemlimit, value, noreply)];
      o := Pass;
    }

    method Stats(args: seq<bytes>) returns (o: Outcome<Error>)
      modifies this
      ensures o == Pass && stack == old(stack) + [StatsFrame(args)]
    {
      stack := stack + [StatsFrame(args)];
      o := Pass;
    }

    method Verbosity(level: int, noreply: bool) returns (o: Outcome<Error>)
      modifies this
      ensures o == Pass && stack == old(stack) + [NumericFrame(NumericCmd.Verbosity, level, noreply)]
    {
      stack := stack + [NumericFrame(NumericCmd.Verbosity, level, noreply)];
      o := Pass;
    }
  }

  /** What `execute` sends after a sequence of pushes is the frames one after another:
      pushing one more frame extends the write by exactly that frame. */
  lemma {:induction false} SentInPushOrder(stack: seq<bytes>, frame: bytes)
    ensures Concat(stack + [frame]) == Concat(stack) + frame
    ensures |Concat(stack + [frame])| == TotalLength(stack) + |frame|
  {
    assert (stack + [frame])[..|stack|] == stack;
    ConcatLength(stack);
  }

  /** A refused builder leaves the bytes `execute` would send unchanged. */
  lemma RefusedPushSendsNothing(before: seq<bytes>, after: seq<bytes>, o: Outcome<Error>, built: Result<bytes, Error>)
    requires Pushes(before, after, o, built)
    ensures o.Fail? <==> built.Err?
    ensures built.Err? ==> Concat(after) == Concat(before)
    ensures built.Ok? ==> Concat(after) == Concat(before) + built.value
  {
    if built.Ok? {
      SentInPushOrder(before, built.value);
    }
  }
}

=== FILE: protocol.dfy ===
/** The fastcache `MemcacheAsciiProtocol`: one command in flight per connection. A command
    writes its frame, installs the parser for its reply (unless noreply), and once the reply
    is complete takes the parser's result and uninstalls it. Each coroutine is split at its
    `await`: a send method up to the wait, and a reply method after it. */
module Protocol {
  import opened Wrappers
  import opened Bytes
  import opened Frames
  import opened LineParser

  /** The `_parser` slot: nothing installed, a one-line parser with its state, or a
      multi-line parser with the bytes it has been fed. */
  datatype ParserSlot = NoParser | OneLine(state: LineState) | MultiLine(fed: bytes)

  /** `get_cmd`'s frame: exactly `get <key>\r\n`. */
  function GetFrame(key: bytes): (r: bytes)
    ensures r == RetrievalFrame(Get, [key])
    ensures |r| == |key| + 6
  {
    Ascii("get ") + key + CRLF
  }

  /** `storage_command`'s frame: command, key, flags, exptime and the value's length as
      decimal numerals separated by single spaces, an optional ` noreply`, CR LF, the value,
      CR LF. Negative numbers keep their sign. */
  function ProtocolStorageFrame(cmd: StorageCmd, key: bytes, value: bytes, flags: int, exptime: int,
                                noreply: bool): (r: bytes)
    ensures r == StorageFrame(cmd, key, value, flags, exptime, noreply, None)
  {
    StorageCmdName(cmd) + [SP] + key + [SP] + IntToDecimal(flags) + [SP] + IntToDecimal(exptime) + [SP]
    + NatToDecimal(|value|) + (if noreply then [SP] + Ascii("noreply") else []) + CRLF + value + CRLF
  }

  /** With a valid key the protocol frame decodes to its fields, no cas, and the value; the
      declared length is the value's length. */
  lemma ProtocolFrameRoundTrip(cmd: StorageCmd, key: bytes, value: bytes, flags: int, exptime: int, noreply: bool)
    requires Keys.IsKeyValid(key)
    ensures ParseStorageFrame(ProtocolStorageFrame(cmd, key, value, flags, exptime, noreply))
            == Some((StorageHeader(cmd, key, flags, exptime, |value|, None, noreply), value))
  {
    StorageFrameRoundTrip(cmd, key, value, flags, exptime, noreply, None);
  }

  lemma SmallNumerals()
    ensures IntToDecimal(0) == Ascii("0") && NatToDecimal(5) == Ascii("5") && IntToDecimal(-1) == Ascii("-1")
  {
    assert NatToDecimal(0) == Ascii("0");
    assert NatToDecimal(1) == Ascii("1");
    assert NatToDecimal(5) == Ascii("5");
  }

  /** The frame of `set foo value` with flags 0, for any exptime. */
  lemma SetFooFrame(exptime: int)
    ensures ProtocolStorageFrame(Set, Ascii("foo"), Ascii("value"), 0, exptime, false)
            == Ascii("set foo 0 ") + IntToDecimal(exptime) + Ascii(" 5\r\nvalue\r\n")
  {
    SmallNumerals();
    assert Ascii("set") + [SP] + Ascii("foo") + [SP] + Ascii("0") + [SP] == Ascii("set foo 0 ");
    assert [SP] + Ascii("5") + CRLF + Ascii("value") + CRLF == Ascii(" 5\r\nvalue\r\n");
  }

  /** The frame `set foo 0 0 5\r\nvalue\r\n` of the protocol's unit test. */
  lemma SetFrameExample()
    ensures ProtocolStorageFrame(Set, Ascii("foo"), Ascii("value"), 0, 0, false) == Ascii("set foo 0 0 5\r\nvalue\r\n")
  {
    SetFooFrame(0);
    SmallNumerals();
    assert Ascii("set foo 0 ") + Ascii("0") + Ascii(" 5\r\nvalue\r\n") == Ascii("set foo 0 0 5\r\nvalue\r\n");
  }

  /** A negative exptime is written with its sign. */
  lemma NegativeExptimeExample()
    ensures ProtocolStorageFrame(Set, Ascii("foo"), Ascii("value"), 0, -1, false)
            == Ascii("set foo 0 -1 5\r\nvalue\r\n")
  {
    SetFooFrame(-1);
    SmallNumerals();
    assert Ascii("set foo 0 ") + Ascii("-1") + Ascii(" 5\r\nvalue\r\n") == Ascii("set foo 0 -1 5\r\nvalue\r\n");
  }

  lemma GetFrameExample()
    ensures GetFrame(Ascii("foo")) == Ascii("get foo\r\n")
  {
  }

  /** The line a completed one-line parser returns: its buffer without a trailing CR LF. */
  function ReplyLine(buffer: bytes): (r: bytes)
    ensures EndsWithCrlf(buffer) ==> r + CRLF == buffer
    ensures !EndsWithCrlf(buffer) ==> r == buffer
  {
    if EndsWithCrlf(buffer) then LineValue(buffer) else buffer
  }

  class MemcacheAsciiProtocol {
    var closed: bool
    /** How many times the transport was closed. */
    var transportCloses: nat
    var parser: ParserSlot
    /** Every byte string handed to the transport's `write`, in order. */
    var written: seq<bytes>

    constructor()
      ensures !closed && transportCloses == 0 && parser == NoParser && written == []
    {
      closed := false;
      transportCloses := 0;
      parser := NoParser;
      written := [];
    }

    /** `close` is idempotent: the transport is closed by the first call only. */
    method Close()
      modifies this
      ensures closed
      ensures transportCloses == old(transportCloses) + (if old(closed) then 0 else 1)
      ensures parser == old(parser) && written == old(written)
    {
      if closed {
        return;
      }
      closed := true;
      transportCloses := transportCloses + 1;
    }

    /** `data_received`: without a parser it raises RuntimeError and changes nothing;
        otherwise the bytes go to the installed parser unchanged. */
    method DataReceived(data: bytes) returns (o: Outcome<Error>)
      modifies this
      ensures old(parser).NoParser? ==> o == Fail(RuntimeError) && parser == old(parser)
      ensures old(parser).MultiLine? ==> o == Pass && parser == MultiLine(old(parser).fed + data)
      ensures old(parser).OneLine? && Feed(old(parser).state, data).Ok? ==>
                o == Pass && parser == OneLine(Feed(old(parser).state, data).value)
      ensures old(parser).OneLine? && Feed(old(parser).state, data).Err? ==>
                o == Fail(IndexError) && parser == old(parser)
      ensures parser.OneLine? ==> parser.state.buffer == old(parser).state.buffer + data
      ensures closed == old(closed) && transportCloses == old(transportCloses) && written == old(written)
    {
      match parser
      case NoParser =>
        return Fail(RuntimeError);
      case MultiLine(fed) =>
        parser := MultiLine(fed + data);
        return Pass;
      case OneLine(state) =>
        var next := Feed(state, data);
        if next.Err? {
          return Fail(next.error);
        }
        parser := OneLine(next.value);
        return Pass;
    }

    /** `get_cmd` up to its wait: a multi-line parser is installed and `get <key>\r\n` written. */
    method GetCmdSend(key: bytes)
      modifies this
      ensures parser == MultiLine([])
      ensures written == old(written) + [GetFrame(key)]
      ensures closed == old(closed) && transportCloses == old(transportCloses)
    {
      parser := MultiLine([]);
      written := written + [GetFrame(key)];
    }

    /** `get_cmd` after its wait: the multi-line parser's input is taken and the slot is
        emptied. Decoding that input into keys, values and flags is not modelled. */
    method GetCmdReply() returns (fed: bytes)
      requires parser.MultiLine?
      modifies this
      ensures fed == old(parser).fed
      ensures parser == NoParser
      ensures written == old(written) && closed == old(closed) && transportCloses == old(transportCloses)
    {
      fed := parser.fed;
      parser := NoParser;
    }

    /** `storage_command` up to its wait. With noreply the frame is written and the command is
        over, with the parser slot untouched; otherwise a fresh one-line parser is installed
        and the frame written. */
    method StorageCommandSend(cmd: StorageCmd, key: bytes, value: bytes, flags: int, exptime: int,
                              noreply: bool)
      modifies this
      ensures written == old(written) + [ProtocolStorageFrame(cmd, key, value, flags, exptime, noreply)]
      ensures noreply ==> parser == old(parser)
      ensures !noreply ==> parser == OneLine(LineState([], false))
      ensures closed == old(closed) && transportCloses == old(transportCloses)
    {
      var data := ProtocolStorageFrame(cmd, key, value, flags, exptime, noreply);
      if noreply {
        written := written + [data];
        return;
      }
      parser := OneLine(LineState([], false));
      written := written + [data];
    }

    /** `storage_command` after its wait, which ends when the parser has signalled: the reply
        line is returned and the slot emptied. */
    method StorageCommandReply() returns (line: bytes)
      requires parser.OneLine? && parser.state.signalled
      modifies this
      ensures line == ReplyLine(old(parser).state.buffer)
      ensures parser == NoParser
      ensures written == old(written) && closed == old(closed) && transportCloses == old(transportCloses)
    {
      line := ReplyLine(parser.state.buffer);
      parser := NoParser;
    }
  }

  /** A set whose reply `STORED\r\n` arrives in one chunk: the frame of the unit test is
      written, the reply line is STORED, and the parser slot ends empty. */
  method StoredExchange(p: MemcacheAsciiProtocol) returns (line: bytes)
    requires p.parser.NoParser?
    modifies p
    ensures p.written == old(p.written) + [Ascii("set foo 0 0 5\r\nvalue\r\n")]
    ensures line == Ascii("STORED") && p.parser == NoParser
  {
    SetFrameExample();
    p.StorageCommandSend(Set, Ascii("foo"), Ascii("value"), 0, 0, false);
    var reply := Ascii("STORED\r\n");
    assert [] + reply == reply;
    assert reply[6] == CR && reply[7] == LF;
    var o := p.DataReceived(reply);
    line := p.StorageCommandReply();
    assert reply[..6] == Ascii("STORED");
  }
}

=== FILE: wrappers.dfy ===
/** Failure-carrying result types and the error taxonomy shared by both clients. */
module Wrappers {

  datatype Option<+T> = None | Some(value: T)

  /** A value or the exception the Python code raises instead. */
  datatype Result<+T, +E> = Ok(value: T) | Err(error: E)

  /** Success without a value, or the exception raised. */
  datatype Outcome<+E> = Pass | Fail(error: E)

  /** Which argument check raised `ValueError`. */
  datatype ValueReason =
    | CasTooLarge     // cas > 2**64
    | FlagsTooLarge   // flags > 2**16
    | InvalidKey      // key fails the key-validity predicate
    | NegativeDelta   // incr/decr by a negative number
    | NotAnInteger    // an incr/decr reply that is not a decimal integer
    | NotInDeque      // removing a waiter that is not in the waiters deque

  /** The exceptions the modelled code raises, one constructor per exception class. */
  datatype Error =
    | RuntimeError                    // client closed, or data received with no parser installed
    | ValueError(reason: ValueReason) // argument validation
    | IndexError                      // indexing or popping an empty buffer or deque
    | StorageCommandError             // a storage reply other than the expected one
    | NotStoredStorageCommandError    // NOT_STORED (or EXISTS for cas)
    | NotFoundCommandError            // NOT_FOUND
    | CommandError                    // any other unexpected reply, or a CLIENT_ERROR
    | Cancelled                       // the awaiting task was cancelled
    | UnicodeDecodeError              // `bytes.decode()` of a string that is not UTF-8
}
